=== FILE: README.md ===
# swiss-meal-search in Dafny

A model of the core of swiss-meal-search, a Next.js meal planner. The user
states preferences. A language model proposes three seasonal Swiss recipes.
The user picks some of them. A second language-model call per recipe extracts
the ingredients, and these are merged into one shopping list with search links
to the Migros and Coop web shops.

The model covers:

- the two API routes: recipe generation and ingredient extraction;
- the two prompt builders;
- the recovery of a JSON array from free text;
- the per-recipe defaulting;
- the flatten-and-deduplicate step;
- the retailer helpers (the search-term cleaner and `encodeURIComponent`);
- the pure logic of the three pages: form validation and the dietary-need
  toggle; recipe selection, previews and the footer; the checked rows, the
  exported text file and each row's links.

Modules, one file each:

| module | what it models |
|---|---|
| `Wrappers` | `Option` and `Result` |
| `Text` | JavaScript white space, ASCII lower-casing, `trim`, `join`, `includes`, integer rendering |
| `Js` | JavaScript values, truthiness, `\|\|`, property reads that throw, `String(v)`, binary `+` |
| `Upstream` | the outcome of a language-model call |
| `JsonRecovery` | the regular expression `/\[[\s\S]*\]/` and the two recovery strategies |
| `Prompts` | `getRecipeGenerationPrompt`, `getIngredientExtractionPrompt` |
| `Normalize` | the `recipes.map(...)` defaulting of the generation route |
| `GenerateRoute` | `POST /api/recipes/generate` |
| `Consolidate` | `flat()` plus the `Map` deduplication of the extraction route, next to an independent reference description |
| `ExtractRoute` | `POST /api/recipes/extract` |
| `Retailers` | `formatIngredientForSearch`, `encodeURIComponent` (with a percent-decoder as its inverse), `generateRetailerLinks` |
| `OrderedSets` | toggling an element in an insertion-ordered collection |
| `PreferencesPage`, `RecipePage`, `ShoppingPage` | the pure parts of the three pages |

Things outside the code become parameters:

- The language model is a function from prompt to reply in the generation
  route. In the extraction route it is the reply to the k-th recipe.
- `JSON.parse` is a parameter `parse: string -> Option<Json>`. Nothing is
  assumed about which texts it accepts.
- The current month's name is a string parameter.
- Whether the API key is set is a boolean.

Behaviour of the code that the model makes explicit:

- The unit pattern has no word boundary, and its first alternative wins.
  "2 cups rice" searches for "s rice", and "2 lemons" searches for "emons".
- A recipe whose `prepTime` is a string displays a concatenated total:
  "20" and 30 give "2030".
- The extraction route's response is the same 500 whatever fails.
- Checked shopping rows are keyed by name, so rows with the same name tick
  together.

## Model

| member | source | states |
|---|---|---|
| `Text.Lower` | lib/retailers.ts:13 | lower-casing keeps the length, maps each character on its own, and leaves no upper-case letter |
| `Text.Trim` | lib/retailers.ts:15 | the result is the slice of the input between leading and trailing white space; everything removed is white space and the result neither starts nor ends with it |
| `Js.Or` | app/api/recipes/generate/route.ts:69-73 | `a \|\| b` is `a` exactly when `a` is truthy, else `b` |
| `Js.Read` | app/api/recipes/generate/route.ts:69 | a property read throws exactly on `null`/`undefined` and otherwise yields the property, `undefined` when it is missing |
| `Upstream.ReplyText` | app/api/recipes/generate/route.ts:37-40 | a reply is usable iff its first block is text; any other block throws "Unexpected response type"; a failed call rethrows its error |
| `JsonRecovery.BracketSpan` | app/api/recipes/generate/route.ts:50-51 | the regex matches iff some '[' precedes some ']'; the match starts with '[' and ends with ']', occurs in the text, and has no '[' before it and no ']' after it |
| `JsonRecovery.RecoverJson` | app/api/recipes/generate/route.ts:43-60 | the whole text wins when it parses; otherwise success iff the bracket span exists and parses; every failure is "Failed to parse recipe data" |
| `JsonRecovery.SpanJson` | app/api/recipes/extract/route.ts:40-44 | a value is recovered iff the bracket span exists and parses, and it is that parse |
| `Prompts.DietaryText` | lib/ai/prompts.ts:11 | missing needs, an empty list or a list joining to "" give "None"; otherwise the needs joined by ", " |
| `Prompts.GenerationPrompt` | lib/ai/prompts.ts:1-30 | the prompt opens with the request for 3 recipes for the month and closes with the month and the JSON-array instruction |
| `Prompts.GenerationPromptMentions` | lib/ai/prompts.ts:4-11 | the prompt contains the month and each preference value directly after its label |
| `Prompts.ExtractionPrompt` | lib/ai/prompts.ts:32-48 | the recipe summary appears verbatim right after "Recipe: ", at a fixed offset |
| `Prompts.ExtractionPromptRoundTrip` | lib/ai/prompts.ts:40 | the summary can be read back out of the prompt, so distinct summaries give distinct prompts |
| `Normalize.ToJson` | app/api/recipes/generate/route.ts:68-76 | an emitted recipe object has exactly the seven recipe keys; `seasonalNote` is not among them |
| `Normalize.NormalizeRecipe` | app/api/recipes/generate/route.ts:68-76 | fails iff the element is `null`/`undefined`, with the `title` read error; otherwise each falsy scalar gets its default, each truthy one is kept unchanged, and the lists are kept only when arrays |
| `Normalize.NormalizeAll` | app/api/recipes/generate/route.ts:68 | succeeds iff no element is nullish, and then keeps length and order; on failure the error is that of the first nullish element |
| `Normalize.NormalFixpoint` | app/api/recipes/generate/route.ts:68-76 | re-normalising a recipe's object gives it back iff the recipe satisfies the invariant `IsNormal` |
| `Normalize.NormalizeIdempotent` | app/api/recipes/generate/route.ts:68-76 | normalising the route's own output again changes nothing |
| `GenerateRoute.ErrorToResponse` | app/api/recipes/generate/route.ts:83-105 | status 429 iff the error message mentions "rate limit" and not "API key", always with "Rate limit exceeded. Please try again later."; every other status is 500 with the message the branch builds |
| `GenerateRoute.CheckShape` | app/api/recipes/generate/route.ts:63-65 | passes iff the value is a non-empty array; otherwise "Invalid recipe format" |
| `GenerateRoute.GenerateRecipes` | app/api/recipes/generate/route.ts:22-76 | succeeds iff the reply is text whose JSON (whole or bracket span) is a non-empty array with no nullish element; then one normalised recipe per element, in order. A non-text reply fails with the reply's error, text without JSON with "Failed to parse recipe data", JSON that is not a non-empty array with "Invalid recipe format", and an array with a nullish element with the first such element's `title` read error |
| `GenerateRoute.Generate` | app/api/recipes/generate/route.ts:9-106 | without the key the answer is the fixed 500; with the key, a failed body read is mapped by the `catch`; after a good body the answer is 200 with the generated recipes when generation succeeds and the `catch`'s answer to its error otherwise; the status is always 200, 429 or 500 |
| `GenerateRoute.MissingKeyShortCircuits` | app/api/recipes/generate/route.ts:12-20 | without the key the answer depends on neither the request body, the model nor the parser |
| `GenerateRoute.OwnMessagesAreNotRateLimits` | app/api/recipes/generate/route.ts:38-69 | none of the route's own error messages, including the `title` read error for either nullish value, contains "rate limit" |
| `GenerateRoute.RateLimitOnlyFromForeignErrors` | app/api/recipes/generate/route.ts:20-95 | a 429 implies the key was set and either the body read or, after a good body, the model call itself threw an error mentioning "rate limit" |
| `GenerateRoute.MalformedBodyCanReportRateLimit` | app/api/recipes/generate/route.ts:20-95 | a body that is not JSON and quotes "rate limit" in V8's parse error is answered with the 429 |
| `GenerateRoute.GoodReplySucceeds` | app/api/recipes/generate/route.ts:36-78 | with the key and a good body, a text reply parsing to a non-empty array of non-nullish elements is answered 200 with each element's normalisation, in order |
| `GenerateRoute.EmptyArrayIsInvalidFormat` | app/api/recipes/generate/route.ts:62-65 | a text reply that parses to `[]` is answered with the 500 "Error: Invalid recipe format" |
| `GenerateRoute.NoJsonIsParseFailure` | app/api/recipes/generate/route.ts:44-59 | an unparsable text reply without '[' yields the 500 "Error: Failed to parse recipe data" |
| `Consolidate.Flat` | app/api/recipes/extract/route.ts:53 | a value is in the flattened list iff it is an item of an array element or a non-array element |
| `Consolidate.FlatAppend` | app/api/recipes/extract/route.ts:53 | flattening distributes over concatenation, so order is kept |
| `Consolidate.FlatOfSingletons` | app/api/recipes/extract/route.ts:53 | when every element is a one-item array, the flattened list is those items, one per element, in order |
| `Consolidate.NameKey` | app/api/recipes/extract/route.ts:57 | the key is computed iff the value is an object with a string `name`, and then it is the lower-cased name |
| `Consolidate.Combine` | app/api/recipes/extract/route.ts:62-66 | the merge chains the two quantities' string forms with " + " and keeps every other field of the stored entry |
| `Consolidate.Record` | app/api/recipes/extract/route.ts:58-66 | `Map.set` keeps the key order for a known key and appends a new key at the end |
| `Consolidate.Tally` | app/api/recipes/extract/route.ts:56-68 | the `forEach` succeeds iff every element has a string name |
| `Consolidate.Keys` | app/api/recipes/extract/route.ts:57-59 | the reference keys are pairwise distinct and no more than the elements |
| `Consolidate.Occurrences` | app/api/recipes/extract/route.ts:57-66 | a key has occurrences iff it is a reference key, and every occurrence carries that key |
| `Consolidate.TallyIsReference` | app/api/recipes/extract/route.ts:54-68 | the `Map` built by the `forEach` equals the independently defined reference table (distinct keys in first-seen order, each with its merged occurrences) |
| `Consolidate.DeduplicateIsReference` | app/api/recipes/extract/route.ts:54-71 | the deduplicated list equals the reference list |
| `Consolidate.KeysOccur` | app/api/recipes/extract/route.ts:57-59 | a key is in the result iff some element has that lower-cased name |
| `Consolidate.KeysFirstSeen` | app/api/recipes/extract/route.ts:58-59 | the keys of any prefix are a prefix of the keys: first-seen order |
| `Consolidate.ReferenceEntry` | app/api/recipes/extract/route.ts:62-66 | a single occurrence is kept as is; several give the first one with all quantities joined by " + " in order; other fields come from the first |
| `Consolidate.ReferenceKeysDistinct` | app/api/recipes/extract/route.ts:57-59 | no two result entries share a lower-cased name, and the i-th has the i-th key |
| `ExtractRoute.ExtractOne` | app/api/recipes/extract/route.ts:14-48 | a recipe's contribution succeeds iff the recipe is not nullish and the reply is text; it is the parsed bracket span when there is one, else `recipe.ingredients` |
| `ExtractRoute.ExtractAll` | app/api/recipes/extract/route.ts:13-50 | all contributions succeed iff each does, and they come in recipe order |
| `ExtractRoute.RecipeList` | app/api/recipes/extract/route.ts:11-14 | the body yields recipes iff it is non-nullish and its `recipes` is an array |
| `ExtractRoute.Handle` | app/api/recipes/extract/route.ts:9-79 | every failure is the one 500 "Failed to extract ingredients"; success iff all steps succeed and every flattened item has a string name, and then the answer is the reference list |
| `ExtractRoute.NoBracketFallsBack` | app/api/recipes/extract/route.ts:39-47 | a text reply without '[' falls back to the recipe's own ingredients |
| `ExtractRoute.NonTextReplyFails` | app/api/recipes/extract/route.ts:34-37 | one non-text reply fails the whole request with the 500 |
| `ExtractRoute.AllFallBack` | app/api/recipes/extract/route.ts:45-47 | when no reply has a '[', the contributions are the recipes' own ingredient lists in order |
| `ExtractRoute.AnswerIsDeduplicated` | app/api/recipes/extract/route.ts:54-71 | a successful answer has one entry per distinct lower-cased name, in first-seen order |
| `Retailers.FirstFit` | lib/retailers.ts:14 | the chosen alternative is one of the group and fits; none is chosen iff none fits |
| `Retailers.FirstFitIs` | lib/retailers.ts:14 | the first fitting alternative in pattern order is chosen, even when a later one also fits |
| `Retailers.UnitMatchFits` | lib/retailers.ts:14 | the group matches iff some alternative fits, case-insensitively |
| `Retailers.MatchLength` | lib/retailers.ts:14 | an anchored match exists iff a digit run is followed (after optional white space) by a unit, and then spans the digits, the spaces and the unit; it is non-empty, fits in the text and starts with a digit |
| `Retailers.EggsNoMatch` | lib/retailers.ts:14 | "2 eggs" has no match at its digit: digits without a unit do not match |
| `Retailers.StripUnits` | lib/retailers.ts:14 | the global replace never lengthens the text nor introduces a character |
| `Retailers.StripUnitsUnchanged` | lib/retailers.ts:14 | the replace leaves the text unchanged iff the pattern matches nowhere |
| `Retailers.NoDigitsNoChange` | lib/retailers.ts:14 | a text without digits is left unchanged |
| `Retailers.FormatForSearch` | lib/retailers.ts:10-18 | the search term is no longer than the name, has no upper-case letter and no white space at either end |
| `Retailers.FormatWithoutDigits` | lib/retailers.ts:12-15 | for a name without digits the term is the trimmed lower-cased name |
| `Retailers.CupsLeavesS` | lib/retailers.ts:14 | "2 cups rice" becomes "s rice": "cup" is tried before "cups" |
| `Retailers.LemonsLosesL` | lib/retailers.ts:14 | "2 lemons" becomes "emons": the unit "l" needs no word boundary |
| `Retailers.Utf8RoundTrip` | lib/retailers.ts:2 | each character's UTF-8 bytes decode back to its code point |
| `Retailers.HexRoundTrip` | lib/retailers.ts:2 | a hex digit reads back as its value |
| `Retailers.EncodeURIComponent` | lib/retailers.ts:2 | the encoding uses only unreserved characters and '%'; a text of unreserved characters is left as it is; an unreserved first character is kept, any other starts a %-escape |
| `Retailers.EncodeAppend` | lib/retailers.ts:2 | the encoding of a concatenation is the concatenation of the encodings |
| `Retailers.EncodeOne` | lib/retailers.ts:2 | an unreserved character encodes as itself, any other as the %XY escapes of its UTF-8 bytes |
| `Retailers.EncodeDecodeRoundTrip` | lib/retailers.ts:2 | percent-decoding the encoding gives back the UTF-8 bytes of the text |
| `Retailers.QuerySafeIsInert` | lib/retailers.ts:5-6 | an encoded character is never a space, '?', '#', '/', '&' or '=' |
| `Retailers.RetailerLinks` | lib/retailers.ts:1-8 | both links start with their shop's search URL and carry the same query value, `encodeURIComponent` of the term, which is URL-safe and decodes to the term's UTF-8 bytes |
| `OrderedSets.Without` | app/preferences/page.tsx:54 | `filter` removes every copy of the element and nothing else, keeping the rest in order |
| `OrderedSets.Toggle` | app/preferences/page.tsx:51-57 | the element's membership flips, every other membership is unchanged; an absent one is appended, a present one removed everywhere |
| `OrderedSets.ToggleKeepsDistinct` | app/preferences/page.tsx:51-57 | toggling never creates a duplicate |
| `OrderedSets.ToggleTwice` | app/preferences/page.tsx:51-57 | toggling twice restores the members; an absent element gives back the same list, a present one moves to the end |
| `PreferencesPage.Errors` | app/preferences/page.tsx:15-18 | there are no messages iff all four selects are filled, and each select's message is reported iff that select is empty |
| `PreferencesPage.Validate` | app/preferences/page.tsx:14-20 | the form passes iff the four selects are filled, unchanged; otherwise the non-empty list of messages |
| `PreferencesPage.ReplayKeepsDistinct` | app/preferences/page.tsx:51-57 | any click sequence keeps the needs free of duplicates |
| `PreferencesPage.ReplayParity` | app/preferences/page.tsx:51-57 | after any clicks a need is checked iff its initial state was flipped by an odd number of clicks on it |
| `PreferencesPage.Submit` | app/preferences/page.tsx:37-44 | a record is stored iff the form is valid; it keeps the four values and takes the needs from the checkboxes, whatever the form held |
| `PreferencesPage.SubmittedPreferencesReachPrompt` | app/preferences/page.tsx:41-44 | every submitted value appears after its label in the generation prompt; no checked need gives "None" |
| `RecipePage.ToggleSelection` | app/recipes/generate/page.tsx:64-72 | the selection stays duplicate-free, the index flips, others are unchanged; a new index is appended, and a selected one is removed with the rest kept in insertion order |
| `RecipePage.ToggleSelectionTwice` | app/recipes/generate/page.tsx:64-72 | clicking a card twice restores the selection |
| `RecipePage.SelectedRecipes` | app/recipes/generate/page.tsx:75 | one entry per selected index in selection order; an index past the end is `undefined` |
| `RecipePage.SelectAppends` | app/recipes/generate/page.tsx:64-75 | selecting a new card appends its recipe at the end |
| `RecipePage.SelectionOrder` | app/recipes/generate/page.tsx:74-75 | the handed-on list follows selection order, not display order |
| `RecipePage.SelectionFooter` | app/recipes/generate/page.tsx:191-203 | the button is disabled iff nothing is selected; the caption starts with the count and ends "s selected" iff the count is not 1 |
| `RecipePage.FooterCountReadsBack` | app/recipes/generate/page.tsx:191-203 | the caption's leading digits, ended by a space, read back as the number of selected recipes |
| `RecipePage.Truncate` | app/recipes/generate/page.tsx:152-158 | the shown items are the prefix up to the limit; the "more" line appears iff the list exceeds it, and shown plus more is the length |
| `RecipePage.IngredientPreview` | app/recipes/generate/page.tsx:152-159 | the first min(5, n) ingredients; a "more" line iff there are over five, counting the rest |
| `RecipePage.InstructionPreview` | app/recipes/generate/page.tsx:163-177 | the block is absent iff there are no steps; otherwise the first min(3, n) steps and a "more" line iff there are over three |
| `RecipePage.DisplayedTotal` | app/recipes/generate/page.tsx:145 | two numbers add up; a string on either side concatenates the string forms |
| `RecipePage.NormalRecipesHaveTotals` | app/api/recipes/generate/route.ts:72-73 | recipes from the generation route never have an `undefined` time |
| `RecipePage.DefaultTotal` | app/api/recipes/generate/route.ts:72-73 | a recipe with both default times shows 45 |
| `RecipePage.StringPrepTimeConcatenates` | app/recipes/generate/page.tsx:145 | a prep time "20" with cooking time 30 shows "2030" |
| `ShoppingPage.ToggleItem` | app/shopping-list/page.tsx:56-64 | the name's membership flips and every other name's is unchanged |
| `ShoppingPage.ToggleItemTwice` | app/shopping-list/page.tsx:56-64 | ticking a box twice restores the set |
| `ShoppingPage.ToggleItemCommutes` | app/shopping-list/page.tsx:56-64 | the order in which two boxes are ticked does not matter |
| `ShoppingPage.ToggleFlipsSameName` | app/shopping-list/page.tsx:114-127 | ticking a row flips exactly the rows with the same name |
| `ShoppingPage.Line` | app/shopping-list/page.tsx:68 | a line is the quantity, a space, the unit, a space and the name: it starts with the quantity and a space, holds the unit right after, ends with a space and the name, and has no other characters |
| `ShoppingPage.Lines` | app/shopping-list/page.tsx:67-68 | one line per row, in row order |
| `ShoppingPage.ExportReadsBack` | app/shopping-list/page.tsx:66-69 | splitting the file on newlines gives back one line per row in order when no field holds a newline; no rows give the empty file |
| `ShoppingPage.RowLinks` | app/shopping-list/page.tsx:111-113 | a row's links are the search links of its cleaned name and decode to that term |
| `ShoppingPage.SameNameSameLinks` | app/shopping-list/page.tsx:111-113 | rows with the same name link to the same searches, whatever their quantity and unit |

## Left out

- `Retailers.EncodeURIComponent`: strings are sequences of Unicode scalar
  values, not UTF-16 code units, so no lone surrogate can occur. The
  program's `encodeURIComponent` throws a `URIError` on one, for example a
  name that reached the reply as the JSON escape `"\ud800"`. The model has
  no such error.
- `Text.Lower`: `toLowerCase` is modelled on ASCII letters only. Other cased
  letters (such as "É") keep their case here, whereas JavaScript lower-cases
  them. Unicode case tables are not part of this model.
- `Js.Add`: numbers are unbounded integers. Fractions, NaN and `undefined`
  operands are not modelled, so the operator requires that neither side is
  `undefined`.
- `RecipePage.DisplayedTotal`: requires both times to be defined, for the same
  reason. The generation route never emits an undefined time
  (`RecipePage.NormalRecipesHaveTotals`).
- Object keys are an unordered map. Key order only matters to
  `JSON.stringify`, which is not modelled.
- The recipe summary that the extraction route serialises for its prompt is
  not modelled. The route is parameterised by the reply to each recipe.
- The SDK client, `NextResponse`, `console.error` and the model parameters
  are outside the model. `request.json()` is not modelled as a parser: the
  generation route takes its outcome as a parameter, either the typed
  preferences or the error it threw, and the extraction route fails with
  the same 500 whatever went wrong. The key check runs before the body
  read, and an error from the body read reaches the same `catch` as any
  other (`GenerateRoute.MalformedBodyCanReportRateLimit`).
- The generation route takes preferences with the form's typed fields.
  Untyped request bodies are not modelled. The prompt's template rendering
  of non-string values is not modelled either.
- `Promise.all` runs its calls concurrently. The model runs them in order.
  Only which error is reported could differ, and the route maps every error
  to the same 500.
- `sessionStorage`, navigation, loading flags, fetch calls between pages and
  all rendering are left out. The shopping list is typed as its interface
  declares: name, quantity and unit as strings.
- The code neither rescales preparation times nor overrides servings. It
  passes truthy field values through without coercing their type. The
  model does the same.
- The `seasonalNote` shown on recipe cards is not modelled. The generation
  route drops it (`Normalize.ToJson`), so the remark never appears.
- The blob download of the exported list is left out. Only its text is
  modelled.

=== FILE: consolidate.dfy ===
/** The combining step of the extraction endpoint: the per-recipe results
    are flattened one level and deduplicated through a JavaScript `Map` keyed
    by the lower-cased ingredient name. A key seen again keeps its place and
    its first entry; only the entry's `quantity` grows by " + " and the new
    quantity.

    The `Map` is an insertion-ordered list of entries, as JavaScript keeps
    it. Next to the route's own algorithm (`Tally`) stands an independent
    description of its outcome (`Reference`): the distinct keys in the order
    they are first seen, each with all of its occurrences merged. */
module Consolidate {
  import opened Wrappers
  import opened Text
  import opened Js

  // ---------------------------------------------------------------------------
  // Flattening
  // ---------------------------------------------------------------------------

  /** What one element contributes to `Array.prototype.flat()`: the items of
      an array, any other value as it is (`undefined` included). */
  function Spread(v: Value): (r: seq<Value>)
    ensures v.Arr? ==> r == v.items
    ensures !v.Arr? ==> r == [v]
  {
    if v.Arr? then v.items else [v]
  }

  /** `xs.flat()`: one level of nesting removed, order kept. */
  function Flat(xs: seq<Value>): (r: seq<Value>)
    ensures forall v :: v in r <==> exists i :: 0 <= i < |xs| && v in Spread(xs[i])
    decreases |xs|
  {
    if |xs| == 0 then []
    else
      var r := Spread(xs[0]) + Flat(xs[1..]);
      assert forall i :: 1 <= i < |xs| ==> xs[1..][i - 1] == xs[i];
      r
  }

  /** Flattening a concatenation flattens the parts in order. */
  lemma {:induction false} FlatAppend(xs: seq<Value>, ys: seq<Value>)
    ensures Flat(xs + ys) == Flat(xs) + Flat(ys)
    decreases |xs|
  {
    if |xs| == 0 {
      assert xs + ys == ys;
    } else {
      assert (xs + ys)[0] == xs[0];
      assert (xs + ys)[1..] == xs[1..] + ys;
      FlatAppend(xs[1..], ys);
    }
  }

  /** The flattened length is the sum of the contributions' lengths; with
      nothing but arrays of one item each it is the number of elements. */
  lemma {:induction false} FlatOfSingletons(xs: seq<Value>)
    requires forall i :: 0 <= i < |xs| ==> xs[i].Arr? && |xs[i].items| == 1
    ensures |Flat(xs)| == |xs|
    ensures forall i :: 0 <= i < |xs| ==> Flat(xs)[i] == xs[i].items[0]
    decreases |xs|
  {
    if |xs| > 0 {
      FlatOfSingletons(xs[1..]);
      assert Spread(xs[0]) == [xs[0].items[0]];
    }
  }

  // ---------------------------------------------------------------------------
  // Keys and the merge of two entries
  // ---------------------------------------------------------------------------

  /** A value whose `name.toLowerCase()` can be computed. */
  predicate Named(v: Value) {
    v.Obj? && "name" in v.props && v.props["name"].Str?
  }

  predicate AllNamed(xs: seq<Value>) {
    forall i :: 0 <= i < |xs| ==> Named(xs[i])
  }

  /** The deduplication key of a named value. */
  function Key(v: Value): string
    requires Named(v)
  {
    Lower(v.props["name"].s)
  }

  /** `ingredient.name.toLowerCase()`: a `TypeError` unless the value is an
      object whose `name` is a string. */
  function NameKey(v: Value): (r: Result<string, Thrown>)
    ensures r.Success? <==> Named(v)
    ensures r.Success? ==> r.value == Key(v)
  {
    if Nullish(v) then Failure(Error(NullReadMessage(v, "name")))
    else
      var name := Prop(v, "name");
      if Nullish(name) then Failure(Error(NullReadMessage(name, "toLowerCase")))
      else if !name.Str? then Failure(Error("ingredient.name.toLowerCase is not a function"))
      else Success(Lower(name.s))
  }

  /** `ingredient.quantity`. */
  function Quantity(v: Value): Value
    requires v.Obj?
  {
    Prop(v, "quantity")
  }

  /** `{ ...v, quantity: q }`: every other field of `v` is kept. */
  function WithQuantity(v: Value, q: Value): (r: Value)
    requires v.Obj?
    ensures r.Obj? && r.props.Keys == v.props.Keys + {"quantity"}
    ensures r.props["quantity"] == q
    ensures forall f :: f in v.props && f != "quantity" ==> r.props[f] == v.props[f]
  {
    Obj(v.props["quantity" := q])
  }

  /** The merge of a duplicate into the stored entry: the quantities are
      rendered by the template literal and chained with " + ". */
  function Combine(existing: Value, incoming: Value): (r: Value)
    requires existing.Obj? && incoming.Obj?
    ensures r.Obj? && Quantity(r) == Str(ToStr(Quantity(existing)) + " + " + ToStr(Quantity(incoming)))
    ensures forall f :: f in existing.props && f != "quantity" ==> f in r.props && r.props[f] == existing.props[f]
  {
    WithQuantity(existing, Str(ToStr(Quantity(existing)) + " + " + ToStr(Quantity(incoming))))
  }

  // ---------------------------------------------------------------------------
  // The route's algorithm: `forEach` over a `Map`
  // ---------------------------------------------------------------------------

  datatype Entry = Entry(key: string, value: Value)

  predicate ObjValues(m: seq<Entry>) {
    forall i :: 0 <= i < |m| ==> m[i].value.Obj?
  }

  /** The keys of a table, in insertion order. */
  function TableKeys(m: seq<Entry>): (ks: seq<string>)
    ensures |ks| == |m| && forall i :: 0 <= i < |m| ==> ks[i] == m[i].key
  {
    seq(|m|, i requires 0 <= i < |m| => m[i].key)
  }

  /** Position of the entry with key `k`. */
  function Find(m: seq<Entry>, k: string): (r: Option<nat>)
    ensures r.Some? ==> r.value < |m| && m[r.value].key == k
    ensures r.Some? ==> forall j :: 0 <= j < r.value ==> m[j].key != k
    ensures r.None? <==> forall j :: 0 <= j < |m| ==> m[j].key != k
    decreases |m|
  {
    if |m| == 0 then None
    else if m[0].key == k then Some(0)
    else match Find(m[1..], k)
      case None => None
      case Some(i) => Some(i + 1)
  }

  /** One step of the `forEach`: `Map.set` on a new key appends the entry;
      on a known key it replaces the value and keeps the position. */
  function Record(m: seq<Entry>, k: string, x: Value): (r: seq<Entry>)
    requires ObjValues(m) && x.Obj?
    ensures ObjValues(r)
    ensures k in TableKeys(m) ==> TableKeys(r) == TableKeys(m)
    ensures k !in TableKeys(m) ==> TableKeys(r) == TableKeys(m) + [k]
  {
    match Find(m, k)
    case None => m + [Entry(k, x)]
    case Some(i) =>
      var r := m[i := Entry(k, Combine(m[i].value, x))];
      assert TableKeys(r) == TableKeys(m);
      r
  }

  /** The `forEach` over the flattened list. The first element without a
      string name throws, and the whole request fails. */
  function Tally(xs: seq<Value>): (r: Result<seq<Entry>, Thrown>)
    ensures r.Success? <==> AllNamed(xs)
    ensures r.Success? ==> ObjValues(r.value)
    decreases |xs|
  {
    if |xs| == 0 then Success([])
    else
      var m :- Tally(xs[..|xs| - 1]);
      var x := xs[|xs| - 1];
      var k :- NameKey(x);
      Success(Record(m, k, x))
  }

  function Values(m: seq<Entry>): (vs: seq<Value>)
    ensures |vs| == |m| && forall i :: 0 <= i < |m| ==> vs[i] == m[i].value
  {
    seq(|m|, i requires 0 <= i < |m| => m[i].value)
  }

  /** `Array.from(uniqueIngredients.values())` after the `forEach`. */
  function Deduplicate(xs: seq<Value>): (r: Result<seq<Value>, Thrown>)
    ensures r.Success? <==> AllNamed(xs)
  {
    var m :- Tally(xs);
    Success(Values(m))
  }

  // ---------------------------------------------------------------------------
  // The reference description
  // ---------------------------------------------------------------------------

  /** The distinct keys of `xs` in the order they are first seen. */
  function Keys(xs: seq<Value>): (ks: seq<string>)
    requires AllNamed(xs)
    ensures |ks| <= |xs|
    ensures forall i, j :: 0 <= i < j < |ks| ==> ks[i] != ks[j]
    decreases |xs|
  {
    if |xs| == 0 then []
    else
      var prefix := Keys(xs[..|xs| - 1]);
      var k := Key(xs[|xs| - 1]);
      if k in prefix then prefix else prefix + [k]
  }

  /** The elements of `xs` with key `k`, in order. */
  function Occurrences(xs: seq<Value>, k: string): (occ: seq<Value>)
    requires AllNamed(xs)
    ensures |occ| <= |xs|
    ensures |occ| > 0 <==> k in Keys(xs)
    ensures forall i :: 0 <= i < |occ| ==> Named(occ[i]) && Key(occ[i]) == k
    decreases |xs|
  {
    if |xs| == 0 then []
    else
      var x := xs[|xs| - 1];
      Occurrences(xs[..|xs| - 1], k) + (if Key(x) == k then [x] else [])
  }

  /** How each occurrence's quantity reads inside a template literal. */
  function QuantityTexts(occ: seq<Value>): (ts: seq<string>)
    requires forall i :: 0 <= i < |occ| ==> occ[i].Obj?
    ensures |ts| == |occ| && forall i :: 0 <= i < |occ| ==> ts[i] == ToStr(Quantity(occ[i]))
  {
    seq(|occ|, i requires 0 <= i < |occ| => ToStr(Quantity(occ[i])))
  }

  /** All occurrences of one key merged into one entry: a single occurrence
      is kept as it is, several give the first one with every quantity, in
      order, joined by " + ". */
  function Merged(occ: seq<Value>): (r: Value)
    requires |occ| > 0 && forall i :: 0 <= i < |occ| ==> occ[i].Obj?
    ensures r.Obj?
  {
    if |occ| == 1 then occ[0]
    else WithQuantity(occ[0], Str(Join(QuantityTexts(occ), " + ")))
  }

  /** The reference entry of a key that occurs in `xs`. */
  function EntryFor(xs: seq<Value>, k: string): (e: Entry)
    requires AllNamed(xs) && k in Keys(xs)
    ensures e.key == k && e.value.Obj?
  {
    Entry(k, Merged(Occurrences(xs, k)))
  }

  /** The table the `forEach` should build: one entry per distinct key, in
      first-seen order, holding the merge of that key's occurrences. */
  function ReferenceTable(xs: seq<Value>): (m: seq<Entry>)
    requires AllNamed(xs)
    ensures |m| == |Keys(xs)|
    ensures forall i :: 0 <= i < |m| ==> m[i] == EntryFor(xs, Keys(xs)[i])
    ensures TableKeys(m) == Keys(xs)
  {
    var ks := Keys(xs);
    seq(|ks|, i requires 0 <= i < |ks| => EntryFor(xs, ks[i]))
  }

  function Reference(xs: seq<Value>): (r: seq<Value>)
    requires AllNamed(xs)
    ensures |r| == |Keys(xs)|
  {
    Values(ReferenceTable(xs))
  }

  // ---------------------------------------------------------------------------
  // The algorithm computes the reference
  // ---------------------------------------------------------------------------

  /** Adding one more occurrence to a merge is what `Combine` does. */
  lemma MergeStep(occ: seq<Value>, x: Value)
    requires |occ| > 0 && forall i :: 0 <= i < |occ| ==> occ[i].Obj?
    requires x.Obj?
    ensures Merged(occ + [x]) == Combine(Merged(occ), x)
  {
    var all := occ + [x];
    assert all[0] == occ[0];
    if |occ| == 1 {
      assert QuantityTexts(all) == [ToStr(Quantity(occ[0])), ToStr(Quantity(x))];
      assert Join(QuantityTexts(all)[1..], " + ") == ToStr(Quantity(x));
    } else {
      var ts := QuantityTexts(occ);
      assert QuantityTexts(all) == ts + [ToStr(Quantity(x))];
      JoinSnoc(ts, ToStr(Quantity(x)), " + ");
      assert Quantity(Merged(occ)) == Str(Join(ts, " + "));
      assert occ[0].props["quantity" := Str(Join(ts, " + "))]["quantity" := Str(Join(ts, " + ") + " + " + ToStr(Quantity(x)))]
             == occ[0].props["quantity" := Str(Join(ts, " + ") + " + " + ToStr(Quantity(x)))];
    }
  }

  /** Appending one named value to a named list. */
  lemma SnocNamed(p: seq<Value>, x: Value)
    requires AllNamed(p) && Named(x)
    ensures AllNamed(p + [x])
    ensures (p + [x])[..|p|] == p && (p + [x])[|p|] == x
  {
  }

  /** The keys after one more value. */
  lemma KeysSnoc(p: seq<Value>, x: Value)
    requires AllNamed(p) && Named(x)
    ensures AllNamed(p + [x])
    ensures Key(x) in Keys(p) ==> Keys(p + [x]) == Keys(p)
    ensures Key(x) !in Keys(p) ==> Keys(p + [x]) == Keys(p) + [Key(x)]
  {
    SnocNamed(p, x);
  }

  /** The occurrences after one more value. */
  lemma OccurrencesSnoc(p: seq<Value>, x: Value, k: string)
    requires AllNamed(p) && Named(x)
    ensures AllNamed(p + [x])
    ensures Key(x) == k ==> Occurrences(p + [x], k) == Occurrences(p, k) + [x]
    ensures Key(x) != k ==> Occurrences(p + [x], k) == Occurrences(p, k)
  {
    SnocNamed(p, x);
    assert Occurrences(p, k) + [] == Occurrences(p, k);
  }

  /** A key other than the new value's keeps its reference entry. */
  lemma EntryForOther(p: seq<Value>, x: Value, k: string)
    requires AllNamed(p) && Named(x) && k in Keys(p) && k != Key(x)
    ensures AllNamed(p + [x]) && k in Keys(p + [x])
    ensures EntryFor(p + [x], k) == EntryFor(p, k)
  {
    KeysSnoc(p, x);
    OccurrencesSnoc(p, x, k);
  }

  /** The entry of the new value's key, when that key is known. */
  lemma EntryForSame(p: seq<Value>, x: Value)
    requires AllNamed(p) && Named(x) && Key(x) in Keys(p)
    ensures AllNamed(p + [x]) && Key(x) in Keys(p + [x])
    ensures EntryFor(p + [x], Key(x)) == Entry(Key(x), Combine(EntryFor(p, Key(x)).value, x))
  {
    KeysSnoc(p, x);
    OccurrencesSnoc(p, x, Key(x));
    MergeStep(Occurrences(p, Key(x)), x);
  }

  /** A known key: its entry absorbs the new occurrence in place. */
  lemma StepKnownKey(p: seq<Value>, x: Value)
    requires AllNamed(p) && Named(x) && Key(x) in Keys(p)
    ensures AllNamed(p + [x])
    ensures Record(ReferenceTable(p), Key(x), x) == ReferenceTable(p + [x])
  {
    var k := Key(x);
    var m := ReferenceTable(p);
    var ks := Keys(p);
    KeysSnoc(p, x);
    var r := ReferenceTable(p + [x]);
    assert Find(m, k).Some?;
    var i := Find(m, k).value;
    EntryForSame(p, x);
    var rec := m[i := Entry(k, Combine(m[i].value, x))];
    assert Record(m, k, x) == rec;
    forall j | 0 <= j < |ks| && j != i
      ensures rec[j] == r[j]
    {
      EntryForOther(p, x, ks[j]);
    }
    assert rec == r;
  }

  /** A new key: the occurrence is appended as it is. */
  lemma StepNewKey(p: seq<Value>, x: Value)
    requires AllNamed(p) && Named(x) && Key(x) !in Keys(p)
    ensures AllNamed(p + [x])
    ensures Record(ReferenceTable(p), Key(x), x) == ReferenceTable(p + [x])
  {
    var k := Key(x);
    var m := ReferenceTable(p);
    var ks := Keys(p);
    KeysSnoc(p, x);
    var r := ReferenceTable(p + [x]);
    assert Find(m, k).None?;
    assert Record(m, k, x) == m + [Entry(k, x)];
    OccurrencesSnoc(p, x, k);
    assert Occurrences(p + [x], k) == [x];
    assert r[|ks|] == Entry(k, x);
    forall j | 0 <= j < |ks|
      ensures m[j] == r[j]
    {
      EntryForOther(p, x, ks[j]);
    }
    assert m + [Entry(k, x)] == r;
  }

  /** The route's `Map` holds, after every prefix, exactly the reference
      table of that prefix. */
  lemma {:induction false} TallyIsReference(xs: seq<Value>)
    requires AllNamed(xs)
    ensures Tally(xs) == Success(ReferenceTable(xs))
    decreases |xs|
  {
    if |xs| > 0 {
      var p := xs[..|xs| - 1];
      var x := xs[|xs| - 1];
      assert AllNamed(p);
      assert xs == p + [x];
      TallyIsReference(p);
      assert Tally(xs) == Success(Record(ReferenceTable(p), Key(x), x));
      if Key(x) in Keys(p) {
        StepKnownKey(p, x);
      } else {
        StepNewKey(p, x);
      }
    }
  }

  /** The endpoint's list is the reference list. */
  lemma DeduplicateIsReference(xs: seq<Value>)
    requires AllNamed(xs)
    ensures Deduplicate(xs) == Success(Reference(xs))
  {
    TallyIsReference(xs);
  }

  // ---------------------------------------------------------------------------
  // Properties of the reference
  // ---------------------------------------------------------------------------

  /** The keys are exactly the keys that occur. */
  lemma {:induction false} KeysOccur(xs: seq<Value>, k: string)
    requires AllNamed(xs)
    ensures k in Keys(xs) <==> exists i :: 0 <= i < |xs| && Key(xs[i]) == k
    decreases |xs|
  {
    if |xs| > 0 {
      var p := xs[..|xs| - 1];
      KeysOccur(p, k);
      if exists i :: 0 <= i < |xs| && Key(xs[i]) == k {
        var i :| 0 <= i < |xs| && Key(xs[i]) == k;
        if i < |xs| - 1 {
          assert p[i] == xs[i];
        }
      }
      if exists i :: 0 <= i < |p| && Key(p[i]) == k {
        var i :| 0 <= i < |p| && Key(p[i]) == k;
        assert xs[i] == p[i];
      }
    }
  }

  /** First-seen order: the keys of any prefix are a prefix of the keys. */
  lemma {:induction false} KeysFirstSeen(xs: seq<Value>, n: nat)
    requires AllNamed(xs) && n <= |xs|
    ensures AllNamed(xs[..n])
    ensures Keys(xs[..n]) <= Keys(xs)
    decreases |xs| - n
  {
    assert AllNamed(xs[..n]);
    if n < |xs| {
      KeysFirstSeen(xs, n + 1);
      var q := xs[..n + 1];
      assert q[..|q| - 1] == xs[..n];
    } else {
      assert xs[..n] == xs;
    }
  }

  /** An entry of the reference list is its key's first occurrence with, when
      the key occurs more than once, the quantities of all occurrences
      chained. */
  lemma ReferenceEntry(xs: seq<Value>, i: nat)
    requires AllNamed(xs) && i < |Keys(xs)|
    ensures var occ := Occurrences(xs, Keys(xs)[i]);
            && |occ| > 0
            && (|occ| == 1 ==> Reference(xs)[i] == occ[0])
            && (|occ| > 1 ==> Quantity(Reference(xs)[i]) == Str(Join(QuantityTexts(occ), " + ")))
            && (forall f :: f in occ[0].props && f != "quantity" ==>
                  f in Reference(xs)[i].props && Reference(xs)[i].props[f] == occ[0].props[f])
  {
  }

  /** No two entries of the reference list share a lower-cased name. */
  lemma ReferenceKeysDistinct(xs: seq<Value>)
    requires AllNamed(xs)
    ensures AllNamed(Reference(xs))
    ensures forall i :: 0 <= i < |Reference(xs)| ==> Key(Reference(xs)[i]) == Keys(xs)[i]
    ensures forall i, j :: 0 <= i < j < |Reference(xs)| ==> Key(Reference(xs)[i]) != Key(Reference(xs)[j])
  {
    var r := Reference(xs);
    var ks := Keys(xs);
    forall i | 0 <= i < |r|
      ensures Named(r[i]) && Key(r[i]) == ks[i]
    {
      ReferenceEntry(xs, i);
      var occ := Occurrences(xs, ks[i]);
      assert "name" in occ[0].props && occ[0].props["name"] == r[i].props["name"];
    }
  }
}

=== FILE: extract_route.dfy ===
/** The ingredient-extraction endpoint: one language-model call per recipe,
    recovery of a JSON array from each reply with a fallback to the recipe's
    own ingredient list, then the flatten-and-merge of module `Consolidate`.
    Every error escaping that work ends in the same 500 response.

    `Promise.all` is modelled as a sequential map in recipe order, which is
    the order it delivers its results in. The reply to the k-th recipe is
    `reply(k)`; the prompt it answers is not modelled. */
module ExtractRoute {
  import opened Wrappers
  import opened Text
  import opened Js
  import opened JsonRecovery
  import opened Upstream
  import opened Consolidate

  const ExtractFailure := "Failed to extract ingredients"

  datatype Response =
    | IngredientsResponse(ingredients: seq<Value>)
    | ErrorResponse(status: int, message: string)

  /** One recipe's contribution. Reading `recipe.title` for the prompt
      throws on a `null` or missing recipe; a reply that is not text throws
      outside the inner `try`; inside it, the parsed bracket span is used
      when there is one that parses, and otherwise `recipe.ingredients`. */
  function ExtractOne(recipe: Value, reply: Reply, parse: string -> Option<Json>)
    : (r: Result<Value, Thrown>)
    ensures r.Success? <==> !Nullish(recipe) && reply.TextBlock?
    ensures !Nullish(recipe) && reply.OtherBlock? ==> r == Failure(Error(UnexpectedResponse))
    ensures r.Success? && SpanJson(reply.text, parse).Some? ==>
              r.value == SpanJson(reply.text, parse).value
    ensures r.Success? && SpanJson(reply.text, parse).None? ==>
              r.value == Prop(recipe, "ingredients")
  {
    var title :- Read(recipe, "title");
    var text :- ReplyText(reply);
    match SpanJson(text, parse)
    case Some(v) => Success(v)
    case None => Success(Prop(recipe, "ingredients"))
  }

  /** The `Promise.all` over `recipes.map(...)`: all contributions in
      recipe order, or an error as soon as one of them fails. */
  function ExtractAll(recipes: seq<Value>, reply: nat -> Reply, parse: string -> Option<Json>)
    : (r: Result<seq<Value>, Thrown>)
    ensures r.Success? <==>
              forall i :: 0 <= i < |recipes| ==> ExtractOne(recipes[i], reply(i), parse).Success?
    ensures r.Success? ==> |r.value| == |recipes|
    ensures r.Success? ==>
              forall i :: 0 <= i < |recipes| ==> r.value[i] == ExtractOne(recipes[i], reply(i), parse).value
    decreases |recipes|
  {
    if |recipes| == 0 then Success([])
    else
      var n := |recipes| - 1;
      var done :- ExtractAll(recipes[..n], reply, parse);
      var last :- ExtractOne(recipes[n], reply(n), parse);
      assert forall i :: 0 <= i < n ==> recipes[..n][i] == recipes[i];
      Success(done + [last])
  }

  /** `const { recipes } = await request.json()` followed by `recipes.map`:
      the body must be an object whose `recipes` is an array. */
  function RecipeList(body: Value): (r: Result<seq<Value>, Thrown>)
    ensures r.Success? <==> !Nullish(body) && Prop(body, "recipes").Arr?
    ensures r.Success? ==> r.value == Prop(body, "recipes").items
  {
    var recipes :- Read(body, "recipes");
    if Nullish(recipes) then Failure(Error(NullReadMessage(recipes, "map")))
    else if !recipes.Arr? then Failure(Error("recipes.map is not a function"))
    else Success(recipes.items)
  }

  /** Everything inside the outer `try`. */
  function Ingredients(body: Value, reply: nat -> Reply, parse: string -> Option<Json>)
    : (r: Result<seq<Value>, Thrown>)
  {
    var recipes :- RecipeList(body);
    var extracted :- ExtractAll(recipes, reply, parse);
    Deduplicate(Flat(extracted))
  }

  /** `POST /api/recipes/extract`. On success the ingredients are the merged
      reference list of the flattened contributions, so no two of them share
      a lower-cased name; any failure is the one fixed 500 response. */
  function Handle(body: Value, reply: nat -> Reply, parse: string -> Option<Json>): (r: Response)
    ensures r.ErrorResponse? ==> r == ErrorResponse(500, ExtractFailure)
    ensures r.IngredientsResponse? <==>
              && RecipeList(body).Success?
              && ExtractAll(RecipeList(body).value, reply, parse).Success?
              && AllNamed(Flat(ExtractAll(RecipeList(body).value, reply, parse).value))
    ensures r.IngredientsResponse? ==>
              r.ingredients == Reference(Flat(ExtractAll(RecipeList(body).value, reply, parse).value))
  {
    match Ingredients(body, reply, parse)
    case Success(items) =>
      DeduplicateIsReference(Flat(ExtractAll(RecipeList(body).value, reply, parse).value));
      IngredientsResponse(items)
    case Failure(_) => ErrorResponse(500, ExtractFailure)
  }

  /** A reply without any '[' cannot yield a bracket span, so the recipe's
      own ingredient list is used. */
  lemma NoBracketFallsBack(recipe: Value, text: string, parse: string -> Option<Json>)
    requires !Nullish(recipe)
    requires forall k :: 0 <= k < |text| ==> text[k] != '['
    ensures ExtractOne(recipe, TextBlock(text), parse) == Success(Prop(recipe, "ingredients"))
  {
    assert BracketSpan(text).None?;
  }

  /** A single reply that is not text fails the whole request, whatever the
      other replies are. */
  lemma NonTextReplyFails(body: Value, reply: nat -> Reply, parse: string -> Option<Json>, i: nat)
    requires RecipeList(body).Success? && i < |RecipeList(body).value|
    requires !reply(i).TextBlock?
    ensures Handle(body, reply, parse) == ErrorResponse(500, ExtractFailure)
  {
    assert !ExtractOne(RecipeList(body).value[i], reply(i), parse).Success?;
  }

  /** When every reply is text without a '[', the answer is the merge of the
      recipes' own ingredient lists, taken in recipe order. */
  lemma AllFallBack(body: Value, reply: nat -> Reply, parse: string -> Option<Json>)
    requires RecipeList(body).Success?
    requires forall i :: 0 <= i < |RecipeList(body).value| ==>
               && !Nullish(RecipeList(body).value[i])
               && reply(i).TextBlock?
               && forall k :: 0 <= k < |reply(i).text| ==> reply(i).text[k] != '['
    ensures ExtractAll(RecipeList(body).value, reply, parse).Success?
    ensures ExtractAll(RecipeList(body).value, reply, parse).value ==
              seq(|RecipeList(body).value|, i requires 0 <= i < |RecipeList(body).value| =>
                    Prop(RecipeList(body).value[i], "ingredients"))
  {
    var recipes := RecipeList(body).value;
    forall i | 0 <= i < |recipes|
      ensures ExtractOne(recipes[i], reply(i), parse) == Success(Prop(recipes[i], "ingredients"))
    {
      NoBracketFallsBack(recipes[i], reply(i).text, parse);
    }
  }

  /** The answer of a successful request has one entry per distinct
      lower-cased name, in the order the names first appear. */
  lemma AnswerIsDeduplicated(body: Value, reply: nat -> Reply, parse: string -> Option<Json>)
    requires Handle(body, reply, parse).IngredientsResponse?
    ensures var all := Flat(ExtractAll(RecipeList(body).value, reply, parse).value);
            var out := Handle(body, reply, parse).ingredients;
            && AllNamed(all) && AllNamed(out)
            && |out| == |Keys(all)| <= |all|
            && (forall i :: 0 <= i < |out| ==> Key(out[i]) == Keys(all)[i])
            && (forall i, j :: 0 <= i < j < |out| ==> Key(out[i]) != Key(out[j]))
  {
    var all := Flat(ExtractAll(RecipeList(body).value, reply, parse).value);
    ReferenceKeysDistinct(all);
  }
}

=== FILE: generate_route.dfy ===
/** The recipe-generation endpoint: configuration check, prompt, one call to
    the language model, two-tier JSON recovery, shape check, per-recipe
    defaulting, and the mapping of thrown errors to HTTP statuses. */
module GenerateRoute {
  import opened Wrappers
  import opened Text
  import opened Js
  import opened JsonRecovery
  import opened Normalize
  import opened Prompts
  import opened Upstream

  datatype Response =
    | RecipesResponse(recipes: seq<Recipe>)
    | ErrorResponse(status: int, message: string)
  {
    function Status(): int {
      if RecipesResponse? then 200 else status
    }
  }

  const InvalidFormat := "Invalid recipe format"
  const ParseFailure := "Failed to parse recipe data"
  const RateLimitMessage := "Rate limit exceeded. Please try again later."

  /** V8's `SyntaxError` message for the body `rate limit`. */
  const BodyParseError := BodyParseLead + "rate limit" + BodyParseTail
  const BodyParseLead := "Unexpected token 'r', \""
  const BodyParseTail := "\" is not valid JSON"

  /** The `catch` block: a message mentioning "API key" is reported first,
      then one mentioning "rate limit" as 429; every other error is a 500. */
  function ErrorToResponse(e: Thrown): (r: Response)
    ensures r.ErrorResponse?
    ensures r.status == 429 <==>
              e.Error? && !Contains(e.message, "API key") && Contains(e.message, "rate limit")
    ensures r.status != 429 ==> r.status == 500
    ensures r.status == 429 ==> r.message == RateLimitMessage
    ensures e.Error? && Contains(e.message, "API key") ==>
              r.message == "API key error: " + e.message
    ensures e.Error? && !Contains(e.message, "API key") && !Contains(e.message, "rate limit") ==>
              r.message == "Error: " + e.message
    ensures e.NonError? ==> r.message == "Failed to generate recipes"
  {
    match e
    case Error(m) =>
      if Contains(m, "API key") then ErrorResponse(500, "API key error: " + m)
      else if Contains(m, "rate limit") then
        ErrorResponse(429, RateLimitMessage)
      else ErrorResponse(500, "Error: " + m)
    case NonError => ErrorResponse(500, "Failed to generate recipes")
  }

  /** `!Array.isArray(recipes) || recipes.length === 0` rejects. */
  function CheckShape(v: Json): (r: Result<seq<Value>, Thrown>)
    ensures r.Success? <==> v.Arr? && |v.items| > 0
    ensures r.Success? ==> r.value == v.items
    ensures r.Failure? ==> r.error == Error(InvalidFormat)
  {
    if v.Arr? && |v.items| > 0 then Success(v.items) else Failure(Error(InvalidFormat))
  }

  /** The model's reply is accepted: it is text, the text (or its bracket
      span) is JSON, and that JSON is a non-empty array none of whose
      elements is `null` or `undefined`. */
  predicate Accepted(reply: Reply, parse: string -> Option<Json>) {
    && reply.TextBlock?
    && RecoverJson(reply.text, parse).Success?
    && RecoverJson(reply.text, parse).value.Arr?
    && |RecoverJson(reply.text, parse).value.items| > 0
    && forall i :: 0 <= i < |RecoverJson(reply.text, parse).value.items| ==>
         !Nullish(RecoverJson(reply.text, parse).value.items[i])
  }

  /** The array elements of an accepted reply. */
  function AcceptedItems(reply: Reply, parse: string -> Option<Json>): seq<Value>
    requires Accepted(reply, parse)
  {
    RecoverJson(reply.text, parse).value.items
  }

  /** Everything inside the `try` after the body read. It succeeds exactly
      on an accepted reply, with one normalised recipe per array element,
      in order. A reply that is not text fails with the reply's error; text
      that yields no JSON with "Failed to parse recipe data"; JSON that is
      not a non-empty array with "Invalid recipe format"; and an array with
      a nullish element with the `title` read error of the first one. */
  function GenerateRecipes(prefs: Preferences, month: string,
                           call: string -> Reply, parse: string -> Option<Json>)
    : (r: Result<seq<Recipe>, Thrown>)
    ensures r.Success? <==> Accepted(call(GenerationPrompt(prefs, month)), parse)
    ensures r.Success? ==>
              var items := AcceptedItems(call(GenerationPrompt(prefs, month)), parse);
              && |r.value| == |items|
              && forall i :: 0 <= i < |items| ==> NormalizeRecipe(items[i]) == Success(r.value[i])
    ensures r.Success? ==> |r.value| > 0
    ensures r.Success? ==> forall i :: 0 <= i < |r.value| ==> IsNormal(r.value[i])
    ensures !call(GenerationPrompt(prefs, month)).TextBlock? ==>
              r == Failure(ReplyText(call(GenerationPrompt(prefs, month))).error)
    ensures var reply := call(GenerationPrompt(prefs, month));
            reply.TextBlock? && RecoverJson(reply.text, parse).Failure? ==>
              r == Failure(Error(ParseFailure))
    ensures var reply := call(GenerationPrompt(prefs, month));
            reply.TextBlock? && RecoverJson(reply.text, parse).Success?
            && !(RecoverJson(reply.text, parse).value.Arr? && |RecoverJson(reply.text, parse).value.items| > 0) ==>
              r == Failure(Error(InvalidFormat))
    ensures var reply := call(GenerationPrompt(prefs, month));
            reply.TextBlock? && RecoverJson(reply.text, parse).Success?
            && RecoverJson(reply.text, parse).value.Arr? && r.Failure? ==>
              var items := RecoverJson(reply.text, parse).value.items;
              |items| == 0 ||
              exists i :: 0 <= i < |items| && Nullish(items[i])
                          && (forall k :: 0 <= k < i ==> !Nullish(items[k]))
                          && r.error == Error(NullReadMessage(items[i], "title"))
  {
    var text :- ReplyText(call(GenerationPrompt(prefs, month)));
    var parsed :- RecoverJson(text, parse);
    var items :- CheckShape(parsed);
    NormalizeAll(items)
  }

  /** `POST /api/recipes/generate`. `apiKeySet` says whether the API key is
      in the environment; `body` is the outcome of `request.json()`, which
      the route awaits inside its `try` right after the key check; `call`
      answers a prompt, `parse` is `JSON.parse`. */
  function Generate(apiKeySet: bool, body: Result<Preferences, Thrown>, month: string,
                    call: string -> Reply, parse: string -> Option<Json>)
    : (r: Response)
    ensures !apiKeySet ==> r == ErrorResponse(500, "API key not configured")
    ensures apiKeySet && body.Failure? ==> r == ErrorToResponse(body.error)
    ensures r.RecipesResponse? ==> apiKeySet && body.Success?
    ensures apiKeySet && body.Success? ==>
              var g := GenerateRecipes(body.value, month, call, parse);
              && (g.Success? ==> r == RecipesResponse(g.value))
              && (g.Failure? ==> r == ErrorToResponse(g.error))
    ensures r.RecipesResponse? ==> |r.recipes| > 0
    ensures r.RecipesResponse? ==> forall i :: 0 <= i < |r.recipes| ==> IsNormal(r.recipes[i])
    ensures r.Status() == 200 || r.Status() == 429 || r.Status() == 500
  {
    if !apiKeySet then ErrorResponse(500, "API key not configured")
    else
      match body
      case Failure(e) => ErrorToResponse(e)
      case Success(prefs) =>
        match GenerateRecipes(prefs, month, call, parse)
        case Success(recipes) => RecipesResponse(recipes)
        case Failure(e) => ErrorToResponse(e)
  }

  /** Without the API key the answer is fixed before the body is read or any
      call is made: it depends on neither the body, the language model nor
      the parser. */
  lemma MissingKeyShortCircuits(body1: Result<Preferences, Thrown>, body2: Result<Preferences, Thrown>,
                                month1: string, month2: string,
                                call1: string -> Reply, call2: string -> Reply,
                                parse1: string -> Option<Json>, parse2: string -> Option<Json>)
    ensures Generate(false, body1, month1, call1, parse1) == Generate(false, body2, month2, call2, parse2)
    ensures Generate(false, body1, month1, call1, parse1).Status() == 500
  {
  }

  /** None of the messages the route throws itself mentions a rate limit,
      whichever nullish element the title read fails on. */
  lemma OwnMessagesAreNotRateLimits()
    ensures !Contains(UnexpectedResponse, "rate limit")
    ensures !Contains(ParseFailure, "rate limit")
    ensures !Contains(InvalidFormat, "rate limit")
    ensures forall v :: Nullish(v) ==> !Contains(NullReadMessage(v, "title"), "rate limit")
  {
    NotContainsByWindow(UnexpectedResponse, "rate limit", 5);
    NotContainsByWindow(ParseFailure, "rate limit", 7);
    NotContainsByWindow(InvalidFormat, "rate limit", 5);
    forall v | Nullish(v) ensures !Contains(NullReadMessage(v, "title"), "rate limit") {
      NotContainsByWindow(NullReadMessage(v, "title"), "rate limit", 7);
    }
  }

  /** A 429 is never caused by the route's own checks: it passes on an error
      thrown by code outside the route whose message mentions a rate limit
      (and not the API key). That is either the body read, whose parse error
      may quote the offending text, or the call to the language model. */
  lemma RateLimitOnlyFromForeignErrors(apiKeySet: bool, body: Result<Preferences, Thrown>, month: string,
                                       call: string -> Reply, parse: string -> Option<Json>)
    requires Generate(apiKeySet, body, month, call, parse).Status() == 429
    ensures apiKeySet
    ensures body.Failure? ==> body.error.Error? && Contains(body.error.message, "rate limit")
    ensures body.Success? ==> call(GenerationPrompt(body.value, month)).CallFailed?
    ensures body.Success? ==> call(GenerationPrompt(body.value, month)).thrown.Error?
    ensures body.Success? ==> Contains(call(GenerationPrompt(body.value, month)).thrown.message, "rate limit")
  {
    if body.Success? {
      var r := GenerateRecipes(body.value, month, call, parse);
      assert r.Failure?;
      OwnMessagesAreNotRateLimits();
    }
  }

  /** A request body that is not JSON reaches the same `catch`: the error
      V8 throws for the body `rate limit` quotes that text, so the client
      is told to slow down. */
  lemma MalformedBodyCanReportRateLimit(month: string, call: string -> Reply, parse: string -> Option<Json>)
    ensures Generate(true, Failure(Error(BodyParseError)), month, call, parse)
            == ErrorResponse(429, RateLimitMessage)
  {
    assert 'A' !in BodyParseLead && 'A' !in "rate limit" && 'A' !in BodyParseTail;
    assert 'A' !in BodyParseError;
    NotContainsByWindow(BodyParseError, "API key", 0);
    assert BodyParseError[|BodyParseLead|..|BodyParseLead| + 10] == "rate limit";
    assert OccursAt(BodyParseError, "rate limit", |BodyParseLead|);
  }

  /** The success path: with the key and a good body, a text reply that
      parses to a non-empty array of non-nullish elements is answered with
      status 200 and one normalised recipe per element, in order. */
  lemma GoodReplySucceeds(prefs: Preferences, month: string, call: string -> Reply,
                          parse: string -> Option<Json>, items: seq<Value>)
    requires call(GenerationPrompt(prefs, month)).TextBlock?
    requires parse(call(GenerationPrompt(prefs, month)).text).Some?
    requires parse(call(GenerationPrompt(prefs, month)).text).value == Arr(items)
    requires |items| > 0 && forall i :: 0 <= i < |items| ==> !Nullish(items[i])
    ensures Generate(true, Success(prefs), month, call, parse).Status() == 200
    ensures Generate(true, Success(prefs), month, call, parse).RecipesResponse?
    ensures var rs := Generate(true, Success(prefs), month, call, parse).recipes;
            && |rs| == |items|
            && forall i :: 0 <= i < |items| ==> NormalizeRecipe(items[i]) == Success(rs[i])
  {
    assert Accepted(call(GenerationPrompt(prefs, month)), parse);
  }

  /** A text reply that is the empty array `[]` is rejected by the shape
      check and answered with the 500 "Error: Invalid recipe format". */
  lemma EmptyArrayIsInvalidFormat(prefs: Preferences, month: string,
                                  call: string -> Reply, parse: string -> Option<Json>)
    requires call(GenerationPrompt(prefs, month)).TextBlock?
    requires parse(call(GenerationPrompt(prefs, month)).text).Some?
    requires parse(call(GenerationPrompt(prefs, month)).text).value == Arr([])
    ensures Generate(true, Success(prefs), month, call, parse) == ErrorResponse(500, "Error: " + InvalidFormat)
  {
    NotContainsByWindow(InvalidFormat, "API key", 0);
    OwnMessagesAreNotRateLimits();
  }

  /** A reply with no parsable text and no bracket span is a parse failure,
      reported as a 500. */
  lemma NoJsonIsParseFailure(prefs: Preferences, month: string,
                             call: string -> Reply, parse: string -> Option<Json>)
    requires call(GenerationPrompt(prefs, month)).TextBlock?
    requires parse(call(GenerationPrompt(prefs, month)).text).None?
    requires forall k :: 0 <= k < |call(GenerationPrompt(prefs, month)).text| ==>
               call(GenerationPrompt(prefs, month)).text[k] != '['
    ensures Generate(true, Success(prefs), month, call, parse) == ErrorResponse(500, "Error: " + ParseFailure)
  {
    var text := call(GenerationPrompt(prefs, month)).text;
    assert BracketSpan(text).None?;
    NotContainsByWindow(ParseFailure, "API key", 0);
    OwnMessagesAreNotRateLimits();
  }
}

=== FILE: js.dfy ===
/** The slice of JavaScript value semantics the application leans on: the
    values `JSON.parse` produces plus `undefined`, truthiness (what `||` and
    `&&` test), property reads (which throw on `null` and `undefined`), the
    string conversion of template literals, and the binary `+` operator.
    Numbers are modelled as integers. */
module Js {
  import opened Wrappers
  import opened Text

  datatype Value =
    | Undefined
    | Null
    | Bool(b: bool)
    | Num(n: int)
    | Str(s: string)
    | Arr(items: seq<Value>)
    | Obj(props: map<string, Value>)

  /** What can be thrown: an `Error` object carrying its message, or any
      other value. */
  datatype Thrown = Error(message: string) | NonError

  /** The values `JSON.parse` can return: `undefined` occurs nowhere inside. */
  predicate IsJson(v: Value)
    decreases v
  {
    match v
    case Undefined => false
    case Arr(items) => forall i :: 0 <= i < |items| ==> IsJson(items[i])
    case Obj(props) => forall k :: k in props ==> IsJson(props[k])
    case _ => true
  }

  type Json = v: Value | IsJson(v) witness Null

  predicate Nullish(v: Value) {
    v.Undefined? || v.Null?
  }

  /** JavaScript truthiness: `undefined`, `null`, `false`, `0` and `""` are
      falsy; every other value, including `[]` and `{}`, is truthy. */
  predicate Truthy(v: Value) {
    match v
    case Undefined => false
    case Null => false
    case Bool(b) => b
    case Num(n) => n != 0
    case Str(s) => |s| > 0
    case Arr(_) => true
    case Obj(_) => true
  }

  /** `a || b`: the left operand when it is truthy, the right one otherwise. */
  function Or(a: Value, b: Value): (r: Value)
    ensures Truthy(a) ==> r == a
    ensures !Truthy(a) ==> r == b
  {
    if Truthy(a) then a else b
  }

  /** The property `key` of a value that is neither `null` nor `undefined`.
      Only objects have own data properties; for the keys this model reads,
      no array, string, number or boolean has one either. */
  function Prop(v: Value, key: string): (r: Value)
    requires !Nullish(v)
    ensures v.Obj? && key in v.props ==> r == v.props[key]
    ensures !(v.Obj? && key in v.props) ==> r == Undefined
  {
    if v.Obj? && key in v.props then v.props[key] else Undefined
  }

  /** The message of the `TypeError` a property read on `null` or `undefined`
      throws. */
  function NullReadMessage(v: Value, key: string): string
    requires Nullish(v)
  {
    "Cannot read properties of " + (if v.Null? then "null" else "undefined")
    + " (reading '" + key + "')"
  }

  /** `v.key`: throws a `TypeError` on `null` and `undefined`. */
  function Read(v: Value, key: string): (r: Result<Value, Thrown>)
    ensures r.Failure? <==> Nullish(v)
    ensures r.Success? ==> r.value == Prop(v, key)
  {
    if Nullish(v) then Failure(Error(NullReadMessage(v, key))) else Success(Prop(v, key))
  }

  /** `String(v)`, the conversion a template literal applies. Arrays join
      their elements with "," and render `null` and `undefined` elements as
      the empty string; plain objects render as "[object Object]". */
  function ToStr(v: Value): string
    decreases v
  {
    match v
    case Undefined => "undefined"
    case Null => "null"
    case Bool(b) => if b then "true" else "false"
    case Num(n) => IntToString(n)
    case Str(s) => s
    case Arr(items) =>
      Join(seq(|items|, i requires 0 <= i < |items| =>
                 if Nullish(items[i]) then "" else ToStr(items[i])), ",")
    case Obj(_) => "[object Object]"
  }

  /** ToPrimitive: arrays and objects turn into their string form. */
  function ToPrimitive(v: Value): (r: Value)
    ensures !r.Arr? && !r.Obj?
    ensures ToStr(r) == ToStr(v)
  {
    if v.Arr? || v.Obj? then Str(ToStr(v)) else v
  }

  /** ToNumber of a primitive other than a string or `undefined`. */
  function ToNumber(v: Value): int
    requires v.Null? || v.Bool? || v.Num?
  {
    match v
    case Null => 0
    case Bool(b) => if b then 1 else 0
    case Num(n) => n
  }

  /** The binary `+` operator: string concatenation as soon as either
      primitive operand is a string, numeric addition otherwise. `undefined`
      is excluded because its sum would be NaN, which integers cannot hold. */
  function Add(a: Value, b: Value): (r: Value)
    requires !a.Undefined? && !b.Undefined?
    ensures a.Num? && b.Num? ==> r == Num(a.n + b.n)
    ensures a.Str? || b.Str? ==> r == Str(ToStr(a) + ToStr(b))
  {
    var pa := ToPrimitive(a);
    var pb := ToPrimitive(b);
    if pa.Str? || pb.Str? then Str(ToStr(pa) + ToStr(pb))
    else Num(ToNumber(pa) + ToNumber(pb))
  }
}

=== FILE: normalize.dfy ===
/** The per-recipe defaulting of the generation route: every element of the
    parsed array becomes an object with exactly the seven recipe fields,
    using `||` defaults for the scalar fields and `Array.isArray` for the two
    lists. Values are passed through as they are: a truthy string in
    `prepTime` stays a string. */
module Normalize {
  import opened Wrappers
  import opened Js

  /** The object the route emits for one recipe. */
  datatype Recipe = Recipe(
    title: Value,
    description: Value,
    servings: Value,
    prepTime: Value,
    cookingTime: Value,
    ingredients: seq<Value>,
    instructions: seq<Value>)

  const DefaultTitle: Value := Str("Untitled Recipe")
  const DefaultDescription: Value := Str("")
  const DefaultServings: Value := Num(2)
  const DefaultPrepTime: Value := Num(15)
  const DefaultCookingTime: Value := Num(30)

  /** The keys of an emitted recipe object. */
  const RecipeKeys: set<string> :=
    {"title", "description", "servings", "prepTime", "cookingTime", "ingredients", "instructions"}

  /** `Array.isArray(v) ? v : []`. */
  function ListOrEmpty(v: Value): (r: seq<Value>)
    ensures v.Arr? ==> r == v.items
    ensures !v.Arr? ==> r == []
  {
    if v.Arr? then v.items else []
  }

  /** The recipe as the JSON object the route returns. */
  function ToJson(r: Recipe): (v: Value)
    ensures v.Obj? && v.props.Keys == RecipeKeys
    ensures "seasonalNote" !in v.props
  {
    Obj(map[
      "title" := r.title,
      "description" := r.description,
      "servings" := r.servings,
      "prepTime" := r.prepTime,
      "cookingTime" := r.cookingTime,
      "ingredients" := Arr(r.ingredients),
      "instructions" := Arr(r.instructions)])
  }

  /** What every emitted recipe satisfies: the defaulted scalar fields are
      truthy, except `description`, which may also be the empty default. */
  predicate IsNormal(r: Recipe) {
    && Truthy(r.title)
    && (Truthy(r.description) || r.description == DefaultDescription)
    && Truthy(r.servings)
    && Truthy(r.prepTime)
    && Truthy(r.cookingTime)
  }

  /** One recipe. Reading `recipe.title` on a `null` element throws before
      anything else happens; otherwise every falsy scalar field (missing,
      `null`, `false`, `0`, `""`) is replaced by its default and every truthy
      one is kept without conversion, and the lists are kept only when they
      are arrays. Other fields, `seasonalNote` among them, are dropped. */
  function NormalizeRecipe(v: Value): (r: Result<Recipe, Thrown>)
    ensures r.Failure? <==> Nullish(v)
    ensures r.Failure? ==> r.error == Error(NullReadMessage(v, "title"))
    ensures r.Success? ==> IsNormal(r.value)
    ensures r.Success? ==>
              && (Truthy(Prop(v, "title")) ==> r.value.title == Prop(v, "title"))
              && (!Truthy(Prop(v, "title")) ==> r.value.title == DefaultTitle)
              && (Truthy(Prop(v, "description")) ==> r.value.description == Prop(v, "description"))
              && (!Truthy(Prop(v, "description")) ==> r.value.description == DefaultDescription)
              && (Truthy(Prop(v, "servings")) ==> r.value.servings == Prop(v, "servings"))
              && (!Truthy(Prop(v, "servings")) ==> r.value.servings == DefaultServings)
              && (Truthy(Prop(v, "prepTime")) ==> r.value.prepTime == Prop(v, "prepTime"))
              && (!Truthy(Prop(v, "prepTime")) ==> r.value.prepTime == DefaultPrepTime)
              && (Truthy(Prop(v, "cookingTime")) ==> r.value.cookingTime == Prop(v, "cookingTime"))
              && (!Truthy(Prop(v, "cookingTime")) ==> r.value.cookingTime == DefaultCookingTime)
    ensures r.Success? ==>
              && (Prop(v, "ingredients").Arr? ==> r.value.ingredients == Prop(v, "ingredients").items)
              && (!Prop(v, "ingredients").Arr? ==> r.value.ingredients == [])
              && (Prop(v, "instructions").Arr? ==> r.value.instructions == Prop(v, "instructions").items)
              && (!Prop(v, "instructions").Arr? ==> r.value.instructions == [])
  {
    var title :- Read(v, "title");
    Success(Recipe(
      Or(title, DefaultTitle),
      Or(Prop(v, "description"), DefaultDescription),
      Or(Prop(v, "servings"), DefaultServings),
      Or(Prop(v, "prepTime"), DefaultPrepTime),
      Or(Prop(v, "cookingTime"), DefaultCookingTime),
      ListOrEmpty(Prop(v, "ingredients")),
      ListOrEmpty(Prop(v, "instructions"))))
  }

  /** `recipes.map(...)`: stops at the first element whose property read
      throws; otherwise keeps the length and the order of the array. */
  function NormalizeAll(xs: seq<Value>): (r: Result<seq<Recipe>, Thrown>)
    ensures r.Success? <==> forall i :: 0 <= i < |xs| ==> !Nullish(xs[i])
    ensures r.Success? ==> |r.value| == |xs|
    ensures r.Success? ==> forall i :: 0 <= i < |xs| ==> NormalizeRecipe(xs[i]) == Success(r.value[i])
    ensures r.Failure? ==>
              exists i :: 0 <= i < |xs| && Nullish(xs[i])
                          && (forall k :: 0 <= k < i ==> !Nullish(xs[k]))
                          && r.error == Error(NullReadMessage(xs[i], "title"))
    decreases |xs|
  {
    if |xs| == 0 then Success([])
    else
      var first :- NormalizeRecipe(xs[0]);
      var rest :- NormalizeAll(xs[1..]);
      assert forall i :: 1 <= i < |xs| ==> xs[i] == xs[1..][i - 1];
      Success([first] + rest)
  }

  /** The recipes emitted by the route are exactly the fixed points of
      normalisation: re-normalising a recipe object gives the same recipe
      back precisely when the recipe satisfies `IsNormal`. */
  lemma NormalFixpoint(r: Recipe)
    ensures NormalizeRecipe(ToJson(r)) == Success(r) <==> IsNormal(r)
  {
    var v := ToJson(r);
    assert Prop(v, "title") == r.title;
    assert Prop(v, "description") == r.description;
    assert Prop(v, "servings") == r.servings;
    assert Prop(v, "prepTime") == r.prepTime;
    assert Prop(v, "cookingTime") == r.cookingTime;
    assert Prop(v, "ingredients") == Arr(r.ingredients);
    assert Prop(v, "instructions") == Arr(r.instructions);
  }

  /** The route's answer, as JSON objects. */
  function Encode(rs: seq<Recipe>): (vs: seq<Value>)
    ensures |vs| == |rs|
    ensures forall i :: 0 <= i < |rs| ==> vs[i] == ToJson(rs[i])
  {
    seq(|rs|, i requires 0 <= i < |rs| => ToJson(rs[i]))
  }

  /** Normalisation is idempotent: normalising the objects of an already
      normalised array gives the same recipes back. */
  lemma NormalizeIdempotent(xs: seq<Value>)
    requires NormalizeAll(xs).Success?
    ensures NormalizeAll(Encode(NormalizeAll(xs).value)) == NormalizeAll(xs)
  {
    var rs := NormalizeAll(xs).value;
    var ys := Encode(rs);
    forall i | 0 <= i < |ys|
      ensures NormalizeRecipe(ys[i]) == Success(rs[i])
    {
      NormalFixpoint(rs[i]);
    }
    var again := NormalizeAll(ys);
    assert again.Success?;
    assert |again.value| == |rs|;
    forall i | 0 <= i < |rs|
      ensures again.value[i] == rs[i]
    {
      assert NormalizeRecipe(ys[i]) == Success(again.value[i]);
    }
    assert again.value == rs;
  }
}

=== FILE: ordered_set.dfy ===
/** Insertion-ordered collections as the pages keep them: a JavaScript `Set`
    (which iterates in insertion order) and an array used as a set. Both
    pages toggle an element the same way: append it when absent, remove it
    when present. */
module OrderedSets {

  predicate Distinct<T(==,!new)>(xs: seq<T>) {
    forall i, j :: 0 <= i < j < |xs| ==> xs[i] != xs[j]
  }

  /** `a` is `b` with some elements left out, the rest in the same order. */
  predicate IsSubseq<T(==,!new)>(a: seq<T>, b: seq<T>)
    decreases |b|
  {
    |a| == 0 || (|b| > 0 && if a[0] == b[0] then IsSubseq(a[1..], b[1..]) else IsSubseq(a, b[1..]))
  }

  /** `xs.filter(y => y !== x)`, which is also `Set.delete` on a list
      without duplicates. */
  function Without<T(==,!new)>(xs: seq<T>, x: T): (r: seq<T>)
    ensures x !in r
    ensures multiset(r) == multiset(xs)[x := 0]
    ensures IsSubseq(r, xs)
    ensures x !in xs ==> r == xs
    decreases |xs|
  {
    if |xs| == 0 then []
    else
      assert xs == [xs[0]] + xs[1..];
      if xs[0] == x then Without(xs[1..], x)
      else [xs[0]] + Without(xs[1..], x)
  }

  /** Toggling: remove every copy of a present element, append an absent one. */
  function Toggle<T(==,!new)>(xs: seq<T>, x: T): (r: seq<T>)
    ensures x in r <==> x !in xs
    ensures forall y :: y != x ==> (y in r <==> y in xs)
    ensures x !in xs ==> r == xs + [x]
    ensures x in xs ==> IsSubseq(r, xs) && multiset(r) == multiset(xs)[x := 0]
  {
    if x in xs then
      var r := Without(xs, x);
      assert forall y :: y != x ==> (y in r <==> y in multiset(r));
      r
    else xs + [x]
  }

  /** Removing elements cannot create duplicates. */
  lemma {:induction false} SubseqKeepsDistinct<T(!new)>(a: seq<T>, b: seq<T>)
    requires IsSubseq(a, b) && Distinct(b)
    ensures Distinct(a)
    decreases |b|
  {
    if |a| > 0 {
      assert |b| > 0;
      if a[0] == b[0] {
        SubseqKeepsDistinct(a[1..], b[1..]);
        SubseqMembers(a[1..], b[1..]);
        forall j | 0 < j < |a| ensures a[0] != a[j] {
          assert a[j] == a[1..][j - 1];
          assert a[j] in b[1..];
        }
      } else {
        SubseqKeepsDistinct(a, b[1..]);
      }
    }
  }

  /** Every element of a subsequence is an element of the whole. */
  lemma {:induction false} SubseqMembers<T(!new)>(a: seq<T>, b: seq<T>)
    requires IsSubseq(a, b)
    ensures forall y :: y in a ==> y in b
    decreases |b|
  {
    if |a| > 0 {
      if a[0] == b[0] {
        SubseqMembers(a[1..], b[1..]);
        assert a == [a[0]] + a[1..];
      } else {
        SubseqMembers(a, b[1..]);
      }
    }
  }

  /** A list without duplicates stays without duplicates under toggling. */
  lemma ToggleKeepsDistinct<T(!new)>(xs: seq<T>, x: T)
    requires Distinct(xs)
    ensures Distinct(Toggle(xs, x))
  {
    if x in xs {
      SubseqKeepsDistinct(Toggle(xs, x), xs);
    }
  }

  /** Toggling twice gives back the same elements. From an absent element
      it gives back the very same list; from a present one the element
      moves to the end. */
  lemma ToggleTwice<T(!new)>(xs: seq<T>, x: T)
    ensures forall y :: y in Toggle(Toggle(xs, x), x) <==> y in xs
    ensures x !in xs ==> Toggle(Toggle(xs, x), x) == xs
    ensures x in xs ==> Toggle(Toggle(xs, x), x) == Without(xs, x) + [x]
  {
    if x !in xs {
      WithoutAppended(xs, x);
    }
  }

  /** Removing an element just appended to a list without it. */
  lemma {:induction false} WithoutAppended<T(!new)>(xs: seq<T>, x: T)
    requires x !in xs
    ensures Without(xs + [x], x) == xs
    decreases |xs|
  {
    if |xs| == 0 {
      assert [x][1..] == [];
    } else {
      assert (xs + [x])[1..] == xs[1..] + [x];
      WithoutAppended(xs[1..], x);
      assert xs == [xs[0]] + xs[1..];
    }
  }
}

=== FILE: preferences_page.dfy ===
/** The pure parts of the preferences page: the validation schema of the
    form, the dietary-need checkboxes (an array toggled by `includes`,
    `filter` and append), and the record stored on submit. */
module PreferencesPage {
  import opened Wrappers
  import opened Text
  import opened OrderedSets
  import opened Prompts

  /** The form values: the four selects and the optional list of needs. */
  datatype Form = Form(
    householdSize: string,
    mealsPerDay: string,
    cookingTime: string,
    skillLevel: string,
    dietaryNeeds: Option<seq<string>>)

  const HouseholdSizeMessage := "Please select household size"
  const MealsPerDayMessage := "Please select meals per day"
  const CookingTimeMessage := "Please select cooking time"
  const SkillLevelMessage := "Please select skill level"

  /** The four select values are all filled in; `dietaryNeeds` is optional. */
  predicate Valid(f: Form) {
    |f.householdSize| > 0 && |f.mealsPerDay| > 0 && |f.cookingTime| > 0 && |f.skillLevel| > 0
  }

  /** The messages `z.string().min(1, ...)` reports, one for each empty
      select, in field order. */
  function Errors(f: Form): (es: seq<string>)
    ensures |es| == 0 <==> Valid(f)
    ensures HouseholdSizeMessage in es <==> f.householdSize == ""
    ensures MealsPerDayMessage in es <==> f.mealsPerDay == ""
    ensures CookingTimeMessage in es <==> f.cookingTime == ""
    ensures SkillLevelMessage in es <==> f.skillLevel == ""
  {
    (if f.householdSize == "" then [HouseholdSizeMessage] else [])
    + (if f.mealsPerDay == "" then [MealsPerDayMessage] else [])
    + (if f.cookingTime == "" then [CookingTimeMessage] else [])
    + (if f.skillLevel == "" then [SkillLevelMessage] else [])
  }

  /** `preferencesSchema.parse`: the form itself when valid, the messages
      otherwise. */
  function Validate(f: Form): (r: Result<Form, seq<string>>)
    ensures r.Success? <==> Valid(f)
    ensures r.Success? ==> r.value == f
    ensures r.Failure? ==> r.error == Errors(f) && |r.error| > 0
  {
    if Valid(f) then Success(f) else Failure(Errors(f))
  }

  /** The needs after the checkbox clicks `clicks`, starting from `needs`. */
  function Replay(needs: seq<string>, clicks: seq<string>): (r: seq<string>)
    decreases |clicks|
  {
    if |clicks| == 0 then needs else Replay(Toggle(needs, clicks[0]), clicks[1..])
  }

  /** Whatever is clicked, starting from a list without duplicates the list
      never holds one need twice. */
  lemma {:induction false} ReplayKeepsDistinct(needs: seq<string>, clicks: seq<string>)
    requires Distinct(needs)
    ensures Distinct(Replay(needs, clicks))
    decreases |clicks|
  {
    if |clicks| > 0 {
      ToggleKeepsDistinct(needs, clicks[0]);
      ReplayKeepsDistinct(Toggle(needs, clicks[0]), clicks[1..]);
    }
  }

  /** A need is checked after the clicks exactly when it was clicked an odd
      number of times more than it started with. */
  lemma {:induction false} ReplayParity(needs: seq<string>, clicks: seq<string>, n: string)
    ensures n in Replay(needs, clicks) <==> (n in needs) != (multiset(clicks)[n] % 2 == 1)
    decreases |clicks|
  {
    if |clicks| > 0 {
      ReplayParity(Toggle(needs, clicks[0]), clicks[1..], n);
      FirstClickCount(clicks, n);
      OneMoreFlips(multiset(clicks[1..])[n], clicks[0] == n);
    }
  }

  /** Counting the clicks on `n`: the first one, then the rest. */
  lemma FirstClickCount(clicks: seq<string>, n: string)
    requires |clicks| > 0
    ensures multiset(clicks)[n] == (if clicks[0] == n then 1 else 0) + multiset(clicks[1..])[n]
  {
    assert clicks == [clicks[0]] + clicks[1..];
  }

  /** One more click flips the parity of the count. */
  lemma OneMoreFlips(count: nat, clicked: bool)
    ensures ((if clicked then 1 else 0) + count) % 2 == 1 <==> (count % 2 == 1) != clicked
  {
  }

  /** `onSubmit` after a successful validation: `{ ...data, dietaryNeeds }`.
      The stored needs are the checkbox state, whatever the form held. */
  function Submit(f: Form, needs: seq<string>): (r: Option<Preferences>)
    ensures r.Some? <==> Valid(f)
    ensures r.Some? ==> r.value.dietaryNeeds == Some(needs)
    ensures r.Some? ==>
              && r.value.householdSize == f.householdSize
              && r.value.mealsPerDay == f.mealsPerDay
              && r.value.cookingTime == f.cookingTime
              && r.value.skillLevel == f.skillLevel
  {
    match Validate(f)
    case Success(data) =>
      Some(Preferences(data.householdSize, data.mealsPerDay, data.cookingTime, data.skillLevel, Some(needs)))
    case Failure(_) => None
  }

  /** The stored preferences reach the generation prompt: every select
      value appears after its label, and the needs as the checkbox list
      joined by ", " (or "None" when no box is checked). */
  lemma SubmittedPreferencesReachPrompt(f: Form, needs: seq<string>, month: string)
    requires Valid(f)
    ensures var p := Submit(f, needs).value;
            && Contains(GenerationPrompt(p, month), HouseholdLabel + f.householdSize)
            && Contains(GenerationPrompt(p, month), MealsLabel + f.mealsPerDay)
            && Contains(GenerationPrompt(p, month), CookingTimeLabel + f.cookingTime)
            && Contains(GenerationPrompt(p, month), SkillLabel + f.skillLevel)
            && Contains(GenerationPrompt(p, month), DietaryLabel + DietaryText(Some(needs)))
            && (|needs| == 0 ==> DietaryText(Some(needs)) == "None")
  {
    GenerationPromptMentions(Submit(f, needs).value, month);
  }
}

=== FILE: prompts.dfy ===
/** The two prompt builders. The generation prompt embeds the current month's
    name, which the application reads from the clock; here it is a
    parameter, so both builders are pure functions of their arguments. */
module Prompts {
  import opened Wrappers
  import opened Text

  /** The stored preferences as the preferences page writes them: the four
      select values as strings and the list of dietary needs. */
  datatype Preferences = Preferences(
    householdSize: string,
    mealsPerDay: string,
    cookingTime: string,
    skillLevel: string,
    dietaryNeeds: Option<seq<string>>)

  /** `preferences.dietaryNeeds?.join(', ') || 'None'`: the needs joined in
      list order, or "None" when they are missing or join to the empty
      string (an empty list, or a list holding only one empty string). */
  function DietaryText(needs: Option<seq<string>>): (r: string)
    ensures needs.None? ==> r == "None"
    ensures needs.Some? && |needs.value| == 0 ==> r == "None"
    ensures needs.Some? && Join(needs.value, ", ") == "" ==> r == "None"
    ensures needs.Some? && Join(needs.value, ", ") != "" ==> r == Join(needs.value, ", ")
    ensures |r| > 0
  {
    match needs
    case None => "None"
    case Some(list) => if Join(list, ", ") == "" then "None" else Join(list, ", ")
  }

  const GenerationOpening := "Generate 3 seasonal Swiss recipes for "
  const GenerationClosing := " in Switzerland\n\nFormat as JSON array with 3 recipes."

  const HouseholdLabel := "- Household size: "
  const MealsLabel := "- Meals per day: "
  const CookingTimeLabel := "- Maximum cooking time: "
  const SkillLabel := "- Skill level: "
  const DietaryLabel := "- Dietary needs: "

  const RequirementsText :=
    "\n\nRequirements:\n"
    + "1. Use ingredients commonly found in Swiss supermarkets (Migros, Coop)\n"
    + "2. Emphasize seasonal, local Swiss produce for "
  const ChecklistText :=
    "\n3. Provide clear, step-by-step instructions\n"
    + "4. Match the cooking time and skill level\n"
    + "5. Respect all dietary restrictions\n\n"
    + "For each recipe, provide:\n"
    + "- Title (in English)\n"
    + "- Description (1-2 sentences)\n"
    + "- Servings\n"
    + "- Prep time and cooking time\n"
    + "- List of ingredients with quantities\n"
    + "- Step-by-step instructions\n"
    + "- Why it's perfect for "

  /** The template of the generation prompt, cut at every interpolation. */
  function GenerationPieces(p: Preferences, month: string): seq<string>
  {
    [ GenerationOpening, month, ".\n\nUser preferences:\n",
      HouseholdLabel, p.householdSize, " people\n",
      MealsLabel, p.mealsPerDay, "\n",
      CookingTimeLabel, p.cookingTime, " minutes\n",
      SkillLabel, p.skillLevel, "\n",
      DietaryLabel, DietaryText(p.dietaryNeeds),
      RequirementsText, month, ChecklistText, month, GenerationClosing ]
  }

  /** `getRecipeGenerationPrompt`. Whatever the preferences, it opens by
      asking for 3 recipes and closes by asking for a JSON array of 3. */
  function GenerationPrompt(p: Preferences, month: string): (r: string)
    ensures StartsWith(r, GenerationOpening + month)
    ensures EndsWith(r, month + GenerationClosing)
  {
    var pieces := GenerationPieces(p, month);
    StartsWithFirstTwo(pieces);
    EndsWithLastTwo(pieces);
    Concat(pieces)
  }

  lemma StartsWithFirstTwo(pieces: seq<string>)
    requires |pieces| >= 2
    ensures StartsWith(Concat(pieces), pieces[0] + pieces[1])
  {
    ContainsAdjacent(pieces, 0);
    assert pieces[..0] == [];
  }

  lemma EndsWithLastTwo(pieces: seq<string>)
    requires |pieces| >= 2
    ensures EndsWith(Concat(pieces), pieces[|pieces| - 2] + pieces[|pieces| - 1])
  {
    var k := |pieces| - 2;
    ConcatSplit(pieces, k);
    var last := pieces[k + 1..];
    assert last == [pieces[k + 1]];
    assert last[1..] == [];
    assert Concat(last) == pieces[k + 1];
  }

  /** Two neighbouring pieces occur together in the concatenation. */
  lemma ContainsAdjacent(pieces: seq<string>, k: nat)
    requires k + 1 < |pieces|
    ensures OccursAt(Concat(pieces), pieces[k] + pieces[k + 1], |Concat(pieces[..k])|)
  {
    ConcatSplit(pieces, k);
    ConcatSplit(pieces[k + 1..], 0);
    assert pieces[k + 1..][0] == pieces[k + 1];
    assert pieces[k + 1..][1..] == pieces[k + 2..];
    var s := Concat(pieces);
    var a := Concat(pieces[..k]);
    var b := pieces[k] + pieces[k + 1];
    assert s == a + b + Concat(pieces[k + 2..]);
    assert s[|a|..|a| + |b|] == b;
  }

  /** The generation prompt mentions the month and every preference value
      verbatim, each preference right after its label. */
  lemma GenerationPromptMentions(p: Preferences, month: string)
    ensures Contains(GenerationPrompt(p, month), month)
    ensures Contains(GenerationPrompt(p, month), HouseholdLabel + p.householdSize)
    ensures Contains(GenerationPrompt(p, month), MealsLabel + p.mealsPerDay)
    ensures Contains(GenerationPrompt(p, month), CookingTimeLabel + p.cookingTime)
    ensures Contains(GenerationPrompt(p, month), SkillLabel + p.skillLevel)
    ensures Contains(GenerationPrompt(p, month), DietaryLabel + DietaryText(p.dietaryNeeds))
  {
    ContainsPiece(GenerationPieces(p, month), 1);
    PromptContainsPair(p, month, 3);
    PromptContainsPair(p, month, 6);
    PromptContainsPair(p, month, 9);
    PromptContainsPair(p, month, 12);
    PromptContainsPair(p, month, 15);
  }

  /** Any two neighbouring template pieces occur together in the prompt. */
  lemma PromptContainsPair(p: Preferences, month: string, k: nat)
    requires k + 1 < |GenerationPieces(p, month)|
    ensures var pieces := GenerationPieces(p, month);
            Contains(GenerationPrompt(p, month), pieces[k] + pieces[k + 1])
  {
    WitnessContains(GenerationPieces(p, month), k);
  }

  lemma WitnessContains(pieces: seq<string>, k: nat)
    requires k + 1 < |pieces|
    ensures Contains(Concat(pieces), pieces[k] + pieces[k + 1])
  {
    ContainsAdjacent(pieces, k);
    var i := |Concat(pieces[..k])|;
    assert 0 <= i <= |Concat(pieces)| - |pieces[k] + pieces[k + 1]|;
  }

  // ---------------------------------------------------------------------------
  // Ingredient extraction
  // ---------------------------------------------------------------------------

  const ExtractionIntro :=
    "Extract ONLY the main ingredients from this recipe. \n"
    + "Ignore common pantry items like:\n"
    + "- Salt, pepper, basic spices\n"
    + "- Oil, butter (unless specific type needed)\n"
    + "- Water\n"
    + "- Basic seasonings\n\n"
  const RecipeLabel := "Recipe: "
  const ExtractionOutro :=
    "\n\nReturn as JSON array with objects containing:\n"
    + "- name: ingredient name\n"
    + "- quantity: amount needed\n"
    + "- unit: measurement unit\n\n"
    + "Focus on ingredients that need to be purchased at the supermarket."

  /** `getIngredientExtractionPrompt`. The argument (the recipe summary the
      route serialises) appears verbatim right after "Recipe: ". */
  function ExtractionPrompt(recipe: string): (r: string)
    ensures OccursAt(r, RecipeLabel + recipe, |ExtractionIntro|)
    ensures |r| == |ExtractionIntro| + |RecipeLabel| + |recipe| + |ExtractionOutro|
  {
    var r := ExtractionIntro + RecipeLabel + recipe + ExtractionOutro;
    assert r[|ExtractionIntro|..|ExtractionIntro| + |RecipeLabel + recipe|] == RecipeLabel + recipe;
    r
  }

  /** Reads the recipe summary back out of an extraction prompt. */
  function SummaryOf(prompt: string): string
    requires |ExtractionIntro| + |RecipeLabel| + |ExtractionOutro| <= |prompt|
  {
    prompt[|ExtractionIntro| + |RecipeLabel|..|prompt| - |ExtractionOutro|]
  }

  /** The extraction prompt loses nothing of its argument: it can be read
      back, so different summaries give different prompts. */
  lemma ExtractionPromptRoundTrip(recipe: string)
    ensures SummaryOf(ExtractionPrompt(recipe)) == recipe
  {
    var r := ExtractionPrompt(recipe);
    assert r == ExtractionIntro + RecipeLabel + recipe + ExtractionOutro;
    assert r[|ExtractionIntro| + |RecipeLabel|..|r| - |ExtractionOutro|] == recipe;
  }
}

=== FILE: recipe_page.dfy ===
/** The pure parts of the recipe-selection page: the selection, which is a
    JavaScript `Set` of card indices kept in insertion order; the list of
    selected recipes handed on to the shopping list; the footer; the
    truncated previews on each card; and the total time it displays. */
module RecipePage {
  import opened Wrappers
  import opened Text
  import opened Js
  import opened Normalize
  import opened OrderedSets

  /** `toggleRecipeSelection`: `Set.delete` when the index is selected,
      `Set.add` (which appends) when it is not. */
  function ToggleSelection(selection: seq<nat>, index: nat): (r: seq<nat>)
    requires Distinct(selection)
    ensures Distinct(r)
    ensures index in r <==> index !in selection
    ensures forall j :: j != index ==> (j in r <==> j in selection)
    ensures index !in selection ==> r == selection + [index]
    ensures index in selection ==> r == Without(selection, index) && IsSubseq(r, selection)
  {
    ToggleKeepsDistinct(selection, index);
    Toggle(selection, index)
  }

  /** Clicking a card twice selects the same recipes as before. */
  lemma ToggleSelectionTwice(selection: seq<nat>, index: nat)
    requires Distinct(selection)
    ensures forall j :: j in ToggleSelection(ToggleSelection(selection, index), index) <==> j in selection
    ensures index !in selection ==> ToggleSelection(ToggleSelection(selection, index), index) == selection
  {
    ToggleTwice(selection, index);
  }

  /** `Array.from(selectedRecipes).map(i => recipes[i])`: one entry per
      selected index, in selection order; an index past the end reads
      `undefined`, written `None` here. */
  function SelectedRecipes(selection: seq<nat>, recipes: seq<Recipe>): (r: seq<Option<Recipe>>)
    ensures |r| == |selection|
    ensures forall k :: 0 <= k < |r| ==>
              (selection[k] < |recipes| ==> r[k] == Some(recipes[selection[k]]))
              && (selection[k] >= |recipes| ==> r[k] == None)
  {
    seq(|selection|, k requires 0 <= k < |selection| =>
          if selection[k] < |recipes| then Some(recipes[selection[k]]) else None)
  }

  /** Selecting one more card appends its recipe at the end, wherever the
      card is on the page. */
  lemma SelectAppends(selection: seq<nat>, recipes: seq<Recipe>, index: nat)
    requires Distinct(selection) && index !in selection && index < |recipes|
    ensures SelectedRecipes(ToggleSelection(selection, index), recipes)
            == SelectedRecipes(selection, recipes) + [Some(recipes[index])]
  {
  }

  /** Selection order, not display order: selecting the second card and then
      the first lists the second recipe first. */
  lemma SelectionOrder(recipes: seq<Recipe>)
    requires |recipes| >= 2
    ensures SelectedRecipes(ToggleSelection(ToggleSelection([], 1), 0), recipes)
            == [Some(recipes[1]), Some(recipes[0])]
  {
    SelectAppends([], recipes, 1);
    SelectAppends([1], recipes, 0);
  }

  // ---------------------------------------------------------------------------
  // The footer
  // ---------------------------------------------------------------------------

  datatype Footer = Footer(caption: string, createDisabled: bool)

  /** "{size} recipe{size !== 1 ? 's' : ''} selected" and the disabled state
      of "Create shopping list". */
  function SelectionFooter(selection: seq<nat>): (f: Footer)
    ensures f.createDisabled <==> |selection| == 0
    ensures StartsWith(f.caption, NatToString(|selection|) + " recipe")
    ensures EndsWith(f.caption, "s selected") <==> |selection| != 1
  {
    var n := |selection|;
    var caption := NatToString(n) + " recipe" + (if n != 1 then "s" else "") + " selected";
    assert caption[..|NatToString(n) + " recipe"|] == NatToString(n) + " recipe";
    assert n == 1 ==> caption[|caption| - 10] == 'e';
    assert n != 1 ==> caption[|caption| - 10..] == "s selected";
    Footer(caption, n == 0)
  }

  /** The count reads back from the caption: it opens with the decimal
      digits of the number of selected recipes, ended by a space. */
  lemma FooterCountReadsBack(selection: seq<nat>)
    ensures var caption := SelectionFooter(selection).caption;
            var k := |NatToString(|selection|)|;
            && k < |caption| && caption[k] == ' '
            && (forall i :: 0 <= i < k ==> IsDigit(caption[i]))
            && DigitsValue(caption[..k]) == |selection|
  {
    var caption := SelectionFooter(selection).caption;
    var digits := NatToString(|selection|);
    assert caption[..|digits + " recipe"|] == digits + " recipe";
    assert caption[..|digits|] == digits;
    assert caption[|digits|] == (digits + " recipe")[|digits|];
    NatToStringRoundTrip(|selection|);
  }

  // ---------------------------------------------------------------------------
  // Card previews
  // ---------------------------------------------------------------------------

  /** A truncated list: the items shown, and the count in the "...and N
      more" line when there is one. */
  datatype Preview<T> = Preview(shown: seq<T>, more: Option<nat>)

  /** `items.slice(0, limit)` plus the "more" line when `items.length > limit`.
      Nothing is lost: the shown items and the announced rest add up to the
      whole list. */
  function Truncate<T>(items: seq<T>, limit: nat): (p: Preview<T>)
    ensures |p.shown| == if |items| < limit then |items| else limit
    ensures p.shown == items[..|p.shown|]
    ensures p.more.Some? <==> |items| > limit
    ensures |p.shown| + (if p.more.Some? then p.more.value else 0) == |items|
  {
    if |items| > limit then Preview(items[..limit], Some(|items| - limit))
    else Preview(items, None)
  }

  const IngredientPreviewLimit := 5
  const InstructionPreviewLimit := 3

  /** The ingredient list of a card: at most five lines and a "more" line. */
  function IngredientPreview(r: Recipe): (p: Preview<Value>)
    ensures |p.shown| <= IngredientPreviewLimit
    ensures |p.shown| == if |r.ingredients| < IngredientPreviewLimit then |r.ingredients| else IngredientPreviewLimit
    ensures p.shown == r.ingredients[..|p.shown|]
    ensures p.more.Some? <==> |r.ingredients| > IngredientPreviewLimit
    ensures p.more.Some? ==> p.more.value == |r.ingredients| - IngredientPreviewLimit
  {
    Truncate(r.ingredients, IngredientPreviewLimit)
  }

  /** The instruction list of a card, absent when there are no steps: at
      most three steps and a "more" line. */
  function InstructionPreview(r: Recipe): (p: Option<Preview<Value>>)
    ensures p.None? <==> |r.instructions| == 0
    ensures p.Some? ==> |p.value.shown| <= InstructionPreviewLimit
    ensures p.Some? ==>
              |p.value.shown| == if |r.instructions| < InstructionPreviewLimit then |r.instructions| else InstructionPreviewLimit
    ensures p.Some? ==> p.value.shown == r.instructions[..|p.value.shown|]
    ensures p.Some? ==> (p.value.more.Some? <==> |r.instructions| > InstructionPreviewLimit)
    ensures p.Some? && p.value.more.Some? ==>
              p.value.more.value == |r.instructions| - InstructionPreviewLimit
  {
    if |r.instructions| > 0 then Some(Truncate(r.instructions, InstructionPreviewLimit)) else None
  }

  // ---------------------------------------------------------------------------
  // Total time
  // ---------------------------------------------------------------------------

  /** `recipe.prepTime + recipe.cookingTime`. Two numbers add up; a string
      on either side (which the endpoint passes through unchanged) turns
      the sum into a concatenation. */
  function DisplayedTotal(r: Recipe): (v: Value)
    requires !r.prepTime.Undefined? && !r.cookingTime.Undefined?
    ensures r.prepTime.Num? && r.cookingTime.Num? ==> v == Num(r.prepTime.n + r.cookingTime.n)
    ensures r.prepTime.Str? || r.cookingTime.Str? ==> v == Str(ToStr(r.prepTime) + ToStr(r.cookingTime))
  {
    Add(r.prepTime, r.cookingTime)
  }

  /** Every recipe the endpoint returns can be displayed: its times are
      never `undefined`. */
  lemma NormalRecipesHaveTotals(r: Recipe)
    requires IsNormal(r)
    ensures !r.prepTime.Undefined? && !r.cookingTime.Undefined?
  {
  }

  /** A recipe that came without times shows the defaults' total, 45. */
  lemma DefaultTotal(r: Recipe)
    requires r.prepTime == DefaultPrepTime && r.cookingTime == DefaultCookingTime
    ensures DisplayedTotal(r) == Num(45)
  {
  }

  /** A prep time sent as the string "20" with a cooking time of 30 shows
      "2030" as the total. */
  lemma StringPrepTimeConcatenates(r: Recipe)
    requires r.prepTime == Str("20") && r.cookingTime == Num(30)
    ensures DisplayedTotal(r) == Str("2030")
  {
    assert NatToString(30) == NatToString(3) + [DigitChar(0)];
    assert ToStr(Num(30)) == "30";
  }
}

=== FILE: recovery.dfy ===
/** Recovering a JSON value from the free text a language model replies with.
    Both API routes look for the regular expression /\[[\s\S]*\]/ in the
    reply; the generation route first tries the whole text.

    `JSON.parse` is a parameter `parse: string -> Option<Json>`: `None` stands
    for the `SyntaxError` it throws. Nothing is assumed about which texts it
    accepts. */
module JsonRecovery {
  import opened Wrappers
  import opened Text
  import opened Js

  /** Position of the first '[' in `s`. */
  function FirstOpen(s: string): (r: Option<nat>)
    ensures r.Some? ==> r.value < |s| && s[r.value] == '['
    ensures r.Some? ==> forall k :: 0 <= k < r.value ==> s[k] != '['
    ensures r.None? ==> forall k :: 0 <= k < |s| ==> s[k] != '['
    decreases |s|
  {
    if |s| == 0 then None
    else if s[0] == '[' then Some(0)
    else match FirstOpen(s[1..])
      case None => None
      case Some(i) => Some(i + 1)
  }

  /** Position of the last ']' in `s`. */
  function LastClose(s: string): (r: Option<nat>)
    ensures r.Some? ==> r.value < |s| && s[r.value] == ']'
    ensures r.Some? ==> forall k :: r.value < k < |s| ==> s[k] != ']'
    ensures r.None? ==> forall k :: 0 <= k < |s| ==> s[k] != ']'
    decreases |s|
  {
    if |s| == 0 then None
    else if s[|s| - 1] == ']' then Some(|s| - 1)
    else LastClose(s[..|s| - 1])
  }

  /** The match of /\[[\s\S]*\]/ in `s`. The engine tries start positions
      from the left and, at a '[', lets the greedy `[\s\S]*` run to the end of
      the text and backs off to the last ']'. A '[' with no ']' after it
      fails, and then so does every later '['; so the match runs from the
      first '[' to the last ']' and exists exactly when that ']' comes after
      that '['. */
  function BracketSpan(s: string): (r: Option<string>)
    ensures r.Some? <==> exists i, j :: 0 <= i < j < |s| && s[i] == '[' && s[j] == ']'
    ensures r.Some? ==> |r.value| >= 2 && r.value[0] == '[' && r.value[|r.value| - 1] == ']'
    ensures r.Some? ==>
              exists i :: 0 <= i <= |s| - |r.value| && OccursAt(s, r.value, i)
                          && (forall k :: 0 <= k < i ==> s[k] != '[')
                          && (forall k :: i + |r.value| <= k < |s| ==> s[k] != ']')
  {
    match (FirstOpen(s), LastClose(s))
    case (Some(i), Some(j)) =>
      if i < j then
        var span := s[i..j + 1];
        assert OccursAt(s, span, i);
        Some(span)
      else None
    case _ => None
  }

  /** Two-tier recovery of the generation route: the whole text when it
      parses, else the bracket span when there is one and it parses, else the
      error "Failed to parse recipe data". The first tier wins even when the
      bracket span would parse to something else. */
  function RecoverJson(text: string, parse: string -> Option<Json>): (r: Result<Json, Thrown>)
    ensures parse(text).Some? ==> r == Success(parse(text).value)
    ensures parse(text).None? ==>
              (r.Success? <==> BracketSpan(text).Some? && parse(BracketSpan(text).value).Some?)
    ensures parse(text).None? && r.Success? ==> r.value == parse(BracketSpan(text).value).value
    ensures r.Failure? ==> r.error == Error("Failed to parse recipe data")
  {
    match parse(text)
    case Some(v) => Success(v)
    case None =>
      match BracketSpan(text)
      case None => Failure(Error("Failed to parse recipe data"))
      case Some(span) =>
        match parse(span)
        case Some(v) => Success(v)
        case None => Failure(Error("Failed to parse recipe data"))
  }

  /** One-tier recovery of the extraction route: the parsed bracket span, or
      `None` when there is no span or it does not parse. */
  function SpanJson(text: string, parse: string -> Option<Json>): (r: Option<Json>)
    ensures r.Some? <==> BracketSpan(text).Some? && parse(BracketSpan(text).value).Some?
    ensures r.Some? ==> r.value == parse(BracketSpan(text).value).value
  {
    match BracketSpan(text)
    case None => None
    case Some(span) => parse(span)
  }
}

=== FILE: retailers.dfy ===
/** Search terms and retailer links for a shopping-list item.

    `formatIngredientForSearch` lower-cases the name, deletes every match of
    /\d+\s*(g|kg|ml|l|cup|cups|tbsp|tsp|piece|pieces)/gi and trims the
    result; `generateRetailerLinks` puts `encodeURIComponent` of a term into
    the Migros and the Coop search URL. The regular expression is modelled by
    a left-to-right scanner; `encodeURIComponent` follows the URI handling
    functions of ECMA-262, with the percent-encoding of section 2.1 of
    RFC 3986 applied to the UTF-8 bytes of every other character. */
module Retailers {
  import opened Wrappers
  import opened Text

  // ---------------------------------------------------------------------------
  // The unit pattern
  // ---------------------------------------------------------------------------

  /** The alternatives of the group, in the order the pattern lists them. */
  const Units: seq<string> := ["g", "kg", "ml", "l", "cup", "cups", "tbsp", "tsp", "piece", "pieces"]

  /** Number of decimal digits at the start of `s`. */
  function DigitRun(s: string): (n: nat)
    ensures n <= |s|
    ensures forall k :: 0 <= k < n ==> IsDigit(s[k])
    ensures n < |s| ==> !IsDigit(s[n])
    decreases |s|
  {
    if |s| > 0 && IsDigit(s[0]) then 1 + DigitRun(s[1..]) else 0
  }

  /** `s` starts with the alternative `u` under the `i` flag. */
  predicate StartsWithFolded(s: string, u: string) {
    |u| <= |s| && forall k :: 0 <= k < |u| ==> LowerChar(s[k]) == u[k]
  }

  /** The first alternative, in pattern order, that `s` starts with. */
  function FirstFit(s: string, alts: seq<string>): (r: Option<string>)
    ensures r.Some? ==> r.value in alts && StartsWithFolded(s, r.value)
    ensures r.None? <==> forall k :: 0 <= k < |alts| ==> !StartsWithFolded(s, alts[k])
    decreases |alts|
  {
    if |alts| == 0 then None
    else if StartsWithFolded(s, alts[0]) then Some(alts[0])
    else
      assert forall k :: 0 < k < |alts| ==> alts[k] == alts[1..][k - 1];
      FirstFit(s, alts[1..])
  }

  /** Length of the match of the group at the start of `s`, if any: the
      length of the first alternative that fits. */
  function UnitMatch(s: string): (r: Option<nat>)
    ensures r.Some? ==> 0 < r.value <= |s|
  {
    var fit := FirstFit(s, Units);
    if fit.None? then None
    else
      UnitNonEmpty(fit.value);
      Some(|fit.value|)
  }

  /** No alternative of the group is empty. */
  lemma UnitNonEmpty(u: string)
    requires u in Units
    ensures |u| > 0
  {
  }

  /** The group matches exactly when one of its alternatives fits. */
  lemma UnitMatchFits(s: string)
    ensures UnitMatch(s).Some? <==> exists k :: 0 <= k < |Units| && StartsWithFolded(s, Units[k])
  {
    if FirstFit(s, Units).Some? {
      var u := FirstFit(s, Units).value;
      var k :| 0 <= k < |Units| && Units[k] == u;
      assert StartsWithFolded(s, Units[k]);
    }
  }

  /** Length of the match of the pattern anchored at the start of `s`, if any.
      Backtracking cannot find a match the greedy runs miss: giving back a
      digit leaves a digit, and giving back white space leaves a space, in
      front of the group, and every alternative starts with a letter. */
  function MatchLength(s: string): (r: Option<nat>)
    ensures r.Some? ==> 0 < r.value <= |s|
    ensures r.Some? ==> IsDigit(s[0])
    ensures !(|s| > 0 && IsDigit(s[0])) ==> r.None?
    ensures var d := DigitRun(s); var w := LeadingSpaces(s[d..]);
            r.Some? <==> d > 0 && UnitMatch(s[d..][w..]).Some?
    ensures var d := DigitRun(s); var w := LeadingSpaces(s[d..]);
            r.Some? ==> UnitMatch(s[d..][w..]).Some? && r.value == d + w + UnitMatch(s[d..][w..]).value
  {
    var d := DigitRun(s);
    if d == 0 then None
    else match GroupAfter(s[d..])
      case None => None
      case Some(m) => Some(d + m)
  }

  /** Length of the white space and group match at the start of `rest`. */
  function GroupAfter(rest: string): (r: Option<nat>)
    ensures r.Some? ==> 0 < r.value <= |rest|
  {
    var w := LeadingSpaces(rest);
    match UnitMatch(rest[w..])
    case None => None
    case Some(n) => Some(w + n)
  }

  /** `s.replace(pattern, '')` with the global flag: the scan tries every
      position from the left, deletes a match where there is one and resumes
      after it, and otherwise keeps the character and moves on by one. */
  function StripUnits(s: string): (r: string)
    ensures |r| <= |s|
    ensures forall c :: c in r ==> c in s
    decreases |s|
  {
    if |s| == 0 then ""
    else match MatchLength(s)
      case Some(n) => StripUnits(s[n..])
      case None => [s[0]] + StripUnits(s[1..])
  }

  /** The pattern matches at no position of `s`. */
  predicate NoMatch(s: string)
    decreases |s|
  {
    |s| == 0 || (MatchLength(s).None? && NoMatch(s[1..]))
  }

  /** The scan changes a text exactly when the pattern matches somewhere in it. */
  lemma {:induction false} StripUnitsUnchanged(s: string)
    ensures StripUnits(s) == s <==> NoMatch(s)
    decreases |s|
  {
    if |s| > 0 {
      if MatchLength(s).Some? {
        StripShortens(s);
      } else {
        StripUnitsUnchanged(s[1..]);
        StripKeepsHead(s);
      }
    }
  }

  /** A match at the start deletes at least one character. */
  lemma StripShortens(s: string)
    requires |s| > 0 && MatchLength(s).Some?
    ensures |StripUnits(s)| < |s|
  {
  }

  /** Without a match at the start, the first character is kept and the
      rest is scanned on its own. */
  lemma StripKeepsHead(s: string)
    requires |s| > 0 && MatchLength(s).None?
    ensures StripUnits(s) == s <==> StripUnits(s[1..]) == s[1..]
  {
    StripStep(s);
    SameHead(s, StripUnits(s[1..]));
  }

  /** A text equals its first character followed by `tail` exactly when
      `tail` is the rest of it. */
  lemma SameHead(s: string, tail: string)
    requires |s| > 0
    ensures [s[0]] + tail == s <==> tail == s[1..]
  {
    assert s == [s[0]] + s[1..];
    assert ([s[0]] + tail)[1..] == tail;
  }

  /** One step of the scan where no match starts. */
  lemma StripStep(s: string)
    requires |s| > 0 && MatchLength(s).None?
    ensures StripUnits(s) == [s[0]] + StripUnits(s[1..])
  {
  }

  predicate NoUpper(s: string) {
    forall i :: 0 <= i < |s| ==> !IsUpper(s[i])
  }

  /** Deleting matches cannot bring back an upper-case letter. */
  lemma StripUnitsKeepsLower(s: string)
    requires NoUpper(s)
    ensures NoUpper(StripUnits(s))
  {
    var r := StripUnits(s);
    forall i | 0 <= i < |r| ensures !IsUpper(r[i]) {
      assert r[i] in r;
    }
  }

  /** Without a digit nothing matches, so nothing is deleted. */
  lemma {:induction false} NoDigitsNoChange(s: string)
    requires forall i :: 0 <= i < |s| ==> !IsDigit(s[i])
    ensures StripUnits(s) == s
    decreases |s|
  {
    if |s| > 0 {
      assert !IsDigit(s[0]);
      NoDigitsNoChange(s[1..]);
      StripUnitsUnchanged(s[1..]);
    }
    StripUnitsUnchanged(s);
  }

  /** `formatIngredientForSearch`. */
  function FormatForSearch(ingredient: string): (r: string)
    ensures |r| <= |ingredient|
    ensures forall i :: 0 <= i < |r| ==> !IsUpper(r[i])
    ensures |r| > 0 ==> !IsSpace(r[0]) && !IsSpace(r[|r| - 1])
  {
    var lowered := Lower(ingredient);
    var stripped := StripUnits(lowered);
    StripUnitsKeepsLower(lowered);
    Trim(stripped)
  }

  /** For a name without digits the search term is the trimmed lower-case name. */
  lemma FormatWithoutDigits(ingredient: string)
    requires forall i :: 0 <= i < |ingredient| ==> !IsDigit(ingredient[i])
    ensures FormatForSearch(ingredient) == Trim(Lower(ingredient))
  {
    var lowered := Lower(ingredient);
    forall i | 0 <= i < |lowered|
      ensures !IsDigit(lowered[i])
    {
      assert lowered[i] == LowerChar(ingredient[i]);
    }
    NoDigitsNoChange(lowered);
  }

  /** Lower-casing leaves a text without upper-case letters alone. */
  lemma LowerOfLower(s: string)
    requires NoUpper(s)
    ensures Lower(s) == s
  {
  }

  /** The alternative chosen is the first that fits, even when a later,
      longer one fits too. */
  lemma {:induction false} FirstFitIs(s: string, alts: seq<string>, k: nat)
    requires k < |alts| && StartsWithFolded(s, alts[k])
    requires forall j :: 0 <= j < k ==> !StartsWithFolded(s, alts[j])
    ensures FirstFit(s, alts).Some? && FirstFit(s, alts).value == alts[k]
    decreases k
  {
    if k > 0 {
      FirstFitIs(s, alts[1..], k - 1);
    }
  }

  /** The anchored match is the digit run, the spaces after it and the
      group match after those. */
  lemma MatchLengthIs(s: string, d: nat, w: nat, n: nat)
    requires 0 < d <= |s| && DigitRun(s) == d
    requires LeadingSpaces(s[d..]) == w
    requires UnitMatch(s[d..][w..]).Some? && UnitMatch(s[d..][w..]).value == n
    ensures MatchLength(s).Some? && MatchLength(s).value == d + w + n
  {
    GroupAfterIs(s[d..], w, n);
  }

  /** The spaces and the group match after the digits. */
  lemma GroupAfterIs(rest: string, w: nat, n: nat)
    requires LeadingSpaces(rest) == w
    requires UnitMatch(rest[w..]).Some? && UnitMatch(rest[w..]).value == n
    ensures GroupAfter(rest).Some? && GroupAfter(rest).value == w + n
  {
  }

  /** A lower-case name with one match at its start, no digit after it and
      no white space at either end of the remainder searches for that
      remainder. */
  lemma FormatOneMatch(s: string, n: nat)
    requires NoUpper(s) && MatchLength(s).Some? && MatchLength(s).value == n
    requires forall i :: n <= i < |s| ==> !IsDigit(s[i])
    requires n < |s| ==> !IsSpace(s[n]) && !IsSpace(s[|s| - 1])
    ensures FormatForSearch(s) == s[n..]
  {
    LowerOfLower(s);
    var left := s[n..];
    assert StripUnits(s) == StripUnits(left);
    NoDigitsNoChange(left);
    TrimKeeps(left);
  }

  /** An alternative that differs from `s` at some position does not fit. */
  lemma NotFoldedAt(s: string, u: string, i: nat)
    requires i < |u| && i < |s| && LowerChar(s[i]) != u[i]
    ensures !StartsWithFolded(s, u)
  {
  }

  /** In "2 cups rice" the pattern matches "2 cup": "cup" is listed before
      "cups" and fits, so "cups" is never tried. */
  lemma CupsMatch(s: string)
    requires s == "2 cups rice"
    ensures MatchLength(s).Some? && MatchLength(s).value == 5
  {
    assert IsDigit(s[0]) && !IsDigit(s[1]);
    assert DigitRun(s) == 1;
    var rest := s[1..];
    assert IsSpace(rest[0]) && !IsSpace(rest[1]);
    assert LeadingSpaces(rest) == 1;
    var tail := rest[1..];
    assert tail[0] == 'c' && tail[1] == 'u' && tail[2] == 'p';
    NotFoldedAt(tail, Units[0], 0);
    NotFoldedAt(tail, Units[1], 0);
    NotFoldedAt(tail, Units[2], 0);
    NotFoldedAt(tail, Units[3], 0);
    assert StartsWithFolded(tail, Units[4]);
    FirstFitIs(tail, Units, 4);
    assert UnitMatch(tail).Some? && UnitMatch(tail).value == 3;
    MatchLengthIs(s, 1, 1, 3);
  }

  /** In "2 eggs" nothing matches at the digit: no unit follows it, and a
      digit run alone is not a match. */
  lemma EggsNoMatch(s: string)
    requires s == "2 eggs"
    ensures MatchLength(s).None?
  {
    assert IsDigit(s[0]) && !IsDigit(s[1]);
    assert DigitRun(s) == 1;
    var rest := s[1..];
    assert IsSpace(rest[0]) && !IsSpace(rest[1]);
    assert LeadingSpaces(rest) == 1;
    var tail := rest[1..];
    assert tail[0] == 'e';
    forall k | 0 <= k < |Units| ensures !StartsWithFolded(tail, Units[k]) {
      NotFoldedAt(tail, Units[k], 0);
    }
    assert UnitMatch(tail).None?;
  }

  /** The side conditions of `FormatOneMatch` for the two examples. */
  lemma OneMatchRemainder(s: string, n: nat)
    requires (s == "2 cups rice" && n == 5) || (s == "2 lemons" && n == 3)
    ensures NoUpper(s) && n < |s|
    ensures forall i :: n <= i < |s| ==> !IsDigit(s[i])
    ensures !IsSpace(s[n]) && !IsSpace(s[|s| - 1])
    ensures s[n..] == (if n == 5 then "s rice" else "emons")
  {
  }

  /** The first alternative wins: only "2 cup" is deleted from
      "2 cups rice", and the search term keeps the plural's "s". */
  lemma CupsLeavesS(s: string)
    requires s == "2 cups rice"
    ensures FormatForSearch(s) == "s rice"
  {
    CupsMatch(s);
    OneMatchRemainder(s, 5);
    FormatOneMatch(s, 5);
  }

  /** In "2 lemons" the pattern matches "2 l": the unit "l" needs no word
      boundary after it. */
  lemma LemonsMatch(s: string)
    requires s == "2 lemons"
    ensures MatchLength(s).Some? && MatchLength(s).value == 3
  {
    assert IsDigit(s[0]) && !IsDigit(s[1]);
    assert DigitRun(s) == 1;
    var rest := s[1..];
    assert IsSpace(rest[0]) && !IsSpace(rest[1]);
    assert LeadingSpaces(rest) == 1;
    var tail := rest[1..];
    assert tail[0] == 'l';
    NotFoldedAt(tail, Units[0], 0);
    NotFoldedAt(tail, Units[1], 0);
    NotFoldedAt(tail, Units[2], 0);
    assert StartsWithFolded(tail, Units[3]);
    FirstFitIs(tail, Units, 3);
    assert UnitMatch(tail).Some? && UnitMatch(tail).value == 1;
    MatchLengthIs(s, 1, 1, 1);
  }

  /** The pattern eats into words: "2 lemons" searches for "emons". */
  lemma LemonsLosesL(s: string)
    requires s == "2 lemons"
    ensures FormatForSearch(s) == "emons"
  {
    LemonsMatch(s);
    OneMatchRemainder(s, 3);
    FormatOneMatch(s, 3);
  }

  // ---------------------------------------------------------------------------
  // encodeURIComponent
  // ---------------------------------------------------------------------------

  type Byte = b: int | 0 <= b < 256

  /** The characters `encodeURIComponent` leaves alone: ASCII letters and
      digits and - _ . ! ~ * ' ( ). */
  predicate Unreserved(c: char) {
    || ('A' <= c <= 'Z') || ('a' <= c <= 'z') || ('0' <= c <= '9')
    || c == '-' || c == '_' || c == '.' || c == '!' || c == '~'
    || c == '*' || c == '\'' || c == '(' || c == ')'
  }

  /** The UTF-8 encoding of one Unicode scalar value. */
  function Utf8(c: char): (bs: seq<Byte>)
    ensures 1 <= |bs| <= 4
    ensures c as int < 0x80 <==> |bs| == 1
    ensures c as int < 0x80 ==> bs == [c as int]
    ensures forall i :: 1 <= i < |bs| ==> 0x80 <= bs[i] < 0xC0
    ensures |bs| > 1 ==> 0xC0 <= bs[0]
  {
    var n := c as int;
    if n < 0x80 then [n]
    else if n < 0x800 then [0xC0 + n / 64, 0x80 + n % 64]
    else if n < 0x10000 then [0xE0 + n / 4096, 0x80 + (n / 64) % 64, 0x80 + n % 64]
    else [0xF0 + n / 262144, 0x80 + (n / 4096) % 64, 0x80 + (n / 64) % 64, 0x80 + n % 64]
  }

  /** The code point a well-formed UTF-8 sequence of one character denotes. */
  function CodePoint(bs: seq<Byte>): int
    requires 1 <= |bs| <= 4
  {
    if |bs| == 1 then bs[0] as int
    else if |bs| == 2 then (bs[0] as int - 0xC0) * 64 + (bs[1] as int - 0x80)
    else if |bs| == 3 then
      (bs[0] as int - 0xE0) * 4096 + (bs[1] as int - 0x80) * 64 + (bs[2] as int - 0x80)
    else
      (bs[0] as int - 0xF0) * 262144 + (bs[1] as int - 0x80) * 4096
      + (bs[2] as int - 0x80) * 64 + (bs[3] as int - 0x80)
  }

  /** Splitting a number into base-64 digits. */
  lemma Base64Digits(n: nat)
    ensures n == (n / 64) * 64 + n % 64
    ensures (n / 64) / 64 == n / 4096
    ensures (n / 4096) / 64 == n / 262144
  {
  }

  /** The UTF-8 bytes of a character decode back to that character. */
  lemma Utf8RoundTrip(c: char)
    ensures CodePoint(Utf8(c)) == c as int
  {
    var n := c as int;
    Base64Digits(n);
    Base64Digits(n / 64);
    Base64Digits(n / 4096);
  }

  /** The UTF-8 encoding of a whole string. */
  function Utf8Bytes(s: string): seq<Byte>
    decreases |s|
  {
    if |s| == 0 then [] else Utf8(s[0]) + Utf8Bytes(s[1..])
  }

  function HexDigit(n: nat): (c: char)
    requires n < 16
    ensures Unreserved(c) && IsHex(c)
  {
    if n < 10 then ('0' as int + n) as char else ('A' as int + n - 10) as char
  }

  predicate IsHex(c: char) {
    ('0' <= c <= '9') || ('A' <= c <= 'F') || ('a' <= c <= 'f')
  }

  function HexValue(c: char): (n: nat)
    requires IsHex(c)
    ensures n < 16
  {
    if '0' <= c <= '9' then c as int - '0' as int
    else if 'A' <= c <= 'F' then c as int - 'A' as int + 10
    else c as int - 'a' as int + 10
  }

  /** Reading a hexadecimal digit back gives its value. */
  lemma HexRoundTrip(n: nat)
    requires n < 16
    ensures HexValue(HexDigit(n)) == n
  {
  }

  /** `%XY` with upper-case hexadecimal digits. */
  function PercentBytes(bs: seq<Byte>): string
    decreases |bs|
  {
    if |bs| == 0 then ""
    else ['%', HexDigit(bs[0] / 16), HexDigit(bs[0] % 16)] + PercentBytes(bs[1..])
  }

  function EncodeChar(c: char): string {
    if Unreserved(c) then [c] else PercentBytes(Utf8(c))
  }

  /** `encodeURIComponent`. Its output holds nothing but unreserved
      characters and '%', so no space, '&', '?', '#', '/' or '=' survives. */
  function EncodeURIComponent(s: string): (r: string)
    ensures forall i :: 0 <= i < |r| ==> Unreserved(r[i]) || r[i] == '%'
    ensures (forall i :: 0 <= i < |s| ==> Unreserved(s[i])) ==> r == s
    ensures |s| > 0 && Unreserved(s[0]) ==> |r| > 0 && r[0] == s[0]
    ensures |s| > 0 && !Unreserved(s[0]) ==> |r| >= 3 && r[0] == '%'
    decreases |s|
  {
    if |s| == 0 then ""
    else
      var head := EncodeChar(s[0]);
      assert forall i :: 0 <= i < |head| ==> Unreserved(head[i]) || head[i] == '%' by {
        if !Unreserved(s[0]) {
          PercentBytesAlphabet(Utf8(s[0]));
        }
      }
      assert !Unreserved(s[0]) ==> |Utf8(s[0])| > 0;
      assert (forall i :: 0 <= i < |s| ==> Unreserved(s[i])) ==> s == [s[0]] + s[1..];
      head + EncodeURIComponent(s[1..])
  }

  /** The encoding works character by character: encoding a concatenation
      concatenates the encodings. */
  lemma {:induction false} EncodeAppend(a: string, b: string)
    ensures EncodeURIComponent(a + b) == EncodeURIComponent(a) + EncodeURIComponent(b)
    decreases |a|
  {
    if |a| > 0 {
      assert (a + b)[0] == a[0];
      assert (a + b)[1..] == a[1..] + b;
      EncodeAppend(a[1..], b);
    } else {
      assert a + b == b;
    }
  }

  /** One character: an unreserved one stays as it is, any other becomes
      the `%XY` escapes of its UTF-8 bytes. */
  lemma EncodeOne(c: char)
    ensures Unreserved(c) ==> EncodeURIComponent([c]) == [c]
    ensures !Unreserved(c) ==> EncodeURIComponent([c]) == PercentBytes(Utf8(c))
  {
    assert [c][1..] == [];
  }

  lemma {:induction false} PercentBytesAlphabet(bs: seq<Byte>)
    ensures forall i :: 0 <= i < |PercentBytes(bs)| ==>
              Unreserved(PercentBytes(bs)[i]) || PercentBytes(bs)[i] == '%'
    decreases |bs|
  {
    if |bs| > 0 {
      PercentBytesAlphabet(bs[1..]);
    }
  }

  /** Percent-decoding to bytes: unreserved characters stand for their own
      code, `%XY` for the byte XY; anything else is malformed. */
  function PercentDecode(t: string): Option<seq<Byte>>
    decreases |t|
  {
    if |t| == 0 then Some([])
    else if t[0] == '%' then
      if |t| >= 3 && IsHex(t[1]) && IsHex(t[2]) then
        match PercentDecode(t[3..])
        case None => None
        case Some(rest) => Some([HexValue(t[1]) * 16 + HexValue(t[2])] + rest)
      else None
    else if Unreserved(t[0]) then
      match PercentDecode(t[1..])
      case None => None
      case Some(rest) => Some([t[0] as int] + rest)
    else None
  }

  lemma {:induction false} DecodePercentBytes(bs: seq<Byte>, rest: string)
    ensures PercentDecode(PercentBytes(bs) + rest) ==
              (match PercentDecode(rest) case None => None case Some(tail) => Some(bs + tail))
    decreases |bs|
  {
    if |bs| > 0 {
      var t := PercentBytes(bs) + rest;
      var b := bs[0];
      assert PercentBytes(bs) == ['%', HexDigit(b / 16), HexDigit(b % 16)] + PercentBytes(bs[1..]);
      assert t[0] == '%' && t[1] == HexDigit(b / 16) && t[2] == HexDigit(b % 16);
      HexRoundTrip(b / 16);
      HexRoundTrip(b % 16);
      assert HexValue(t[1]) * 16 + HexValue(t[2]) == b;
      assert t[3..] == PercentBytes(bs[1..]) + rest;
      DecodePercentBytes(bs[1..], rest);
      match PercentDecode(rest)
      case None =>
      case Some(tail) =>
        assert PercentDecode(t[3..]) == Some(bs[1..] + tail);
        assert PercentDecode(t) == Some([b] + (bs[1..] + tail));
        assert [b] + (bs[1..] + tail) == bs + tail;
    } else {
      assert PercentBytes(bs) + rest == rest;
      match PercentDecode(rest)
      case None =>
      case Some(tail) => assert bs + tail == tail;
    }
  }

  /** Percent-decoding undoes `encodeURIComponent`: it yields exactly the
      UTF-8 bytes of the original text. */
  lemma {:induction false} EncodeDecodeRoundTrip(s: string)
    ensures PercentDecode(EncodeURIComponent(s)) == Some(Utf8Bytes(s))
    decreases |s|
  {
    if |s| > 0 {
      var c := s[0];
      var rest := EncodeURIComponent(s[1..]);
      EncodeDecodeRoundTrip(s[1..]);
      if Unreserved(c) {
        var t := [c] + rest;
        assert t[1..] == rest;
      } else {
        DecodePercentBytes(Utf8(c), rest);
      }
    }
  }

  // ---------------------------------------------------------------------------
  // Links
  // ---------------------------------------------------------------------------

  const MigrosSearch := "https://www.migros.ch/en/search?query="
  const CoopSearch := "https://www.coop.ch/en/search/?q="

  datatype Links = Links(migros: string, coop: string)

  /** The characters an encoded query value is made of. None of them ends
      the value or starts another URL component. */
  predicate QuerySafe(c: char) {
    Unreserved(c) || c == '%'
  }

  lemma QuerySafeIsInert(c: char)
    requires QuerySafe(c)
    ensures c != ' ' && c != '&' && c != '?' && c != '#' && c != '/' && c != '='
  {
  }

  /** What follows a prefix in a concatenation. */
  lemma AfterPrefix(prefix: string, value: string)
    ensures StartsWith(prefix + value, prefix)
    ensures (prefix + value)[|prefix|..] == value
  {
    assert (prefix + value)[..|prefix|] == prefix;
  }

  /** `generateRetailerLinks`. Both links are their retailer's fixed search
      URL followed by one and the same query value, and that value decodes
      back to the UTF-8 bytes of the search term. */
  function RetailerLinks(term: string): (r: Links)
    ensures StartsWith(r.migros, MigrosSearch) && StartsWith(r.coop, CoopSearch)
    ensures r.migros[|MigrosSearch|..] == r.coop[|CoopSearch|..]
    ensures r.migros[|MigrosSearch|..] == EncodeURIComponent(term)
    ensures PercentDecode(r.migros[|MigrosSearch|..]) == Some(Utf8Bytes(term))
    ensures forall i :: |MigrosSearch| <= i < |r.migros| ==> QuerySafe(r.migros[i])
  {
    var value := EncodeURIComponent(term);
    EncodeDecodeRoundTrip(term);
    AfterPrefix(MigrosSearch, value);
    AfterPrefix(CoopSearch, value);
    Links(MigrosSearch + value, CoopSearch + value)
  }
}

=== FILE: shopping_page.dfy ===
/** The pure parts of the shopping-list page: the checked state of the
    rows (a JavaScript `Set` of ingredient names), the exported text file,
    and the retailer links of each row. The rows are typed as the page
    declares them: a name, a quantity and a unit, all strings. */
module ShoppingPage {
  import opened Wrappers
  import opened Text
  import opened Retailers

  datatype Item = Item(name: string, quantity: string, unit: string)

  /** `toggleItem`: delete the name when the set has it, add it otherwise. */
  function ToggleItem(checked: set<string>, name: string): (r: set<string>)
    ensures name in r <==> name !in checked
    ensures forall other :: other != name ==> (other in r <==> other in checked)
  {
    if name in checked then checked - {name} else checked + {name}
  }

  /** Ticking a box twice leaves the list exactly as it was. */
  lemma ToggleItemTwice(checked: set<string>, name: string)
    ensures ToggleItem(ToggleItem(checked, name), name) == checked
  {
  }

  /** The order in which two boxes are ticked does not matter. */
  lemma ToggleItemCommutes(checked: set<string>, a: string, b: string)
    ensures ToggleItem(ToggleItem(checked, a), b) == ToggleItem(ToggleItem(checked, b), a)
  {
  }

  /** `checkedItems.has(ingredient.name)`. */
  predicate IsChecked(checked: set<string>, item: Item) {
    item.name in checked
  }

  /** The state is keyed by name, not by row: ticking row `i` flips every
      row with the same name and no other. */
  lemma ToggleFlipsSameName(checked: set<string>, items: seq<Item>, i: nat, j: nat)
    requires i < |items| && j < |items|
    ensures IsChecked(ToggleItem(checked, items[i].name), items[j])
            <==> (IsChecked(checked, items[j]) != (items[j].name == items[i].name))
  {
  }

  /** The text of a row and of a line of the exported file:
      "{quantity} {unit} {name}". The quantity with its space, the unit and
      the space with the name, laid end to end, fill the line exactly. */
  function Line(item: Item): (l: string)
    ensures |l| == |item.quantity| + |item.unit| + |item.name| + 2
    ensures StartsWith(l, item.quantity + " ") && EndsWith(l, " " + item.name)
    ensures OccursAt(l, item.unit, |item.quantity| + 1)
  {
    var l := item.quantity + " " + item.unit + " " + item.name;
    assert l[..|item.quantity + " "|] == item.quantity + " ";
    assert l[|item.quantity| + 1..|item.quantity| + 1 + |item.unit|] == item.unit;
    assert l[|l| - |" " + item.name|..] == " " + item.name;
    l
  }

  function Lines(items: seq<Item>): (ls: seq<string>)
    ensures |ls| == |items|
    ensures forall i :: 0 <= i < |items| ==> ls[i] == Line(items[i])
  {
    seq(|items|, i requires 0 <= i < |items| => Line(items[i]))
  }

  /** `exportList`: the rows' lines joined by newlines. */
  function Export(items: seq<Item>): string
  {
    Join(Lines(items), "\n")
  }

  /** `String.prototype.split` with a one-character separator: the pieces
      between separators, so `n` separators give `n + 1` pieces and the
      empty string gives one empty piece. */
  function Split(s: string, c: char): (r: seq<string>)
    ensures |r| > 0
    ensures forall k :: 0 <= k < |r| ==> c !in r[k]
    decreases |s|
  {
    if |s| == 0 then [""]
    else
      var rest := Split(s[1..], c);
      if s[0] == c then [""] + rest
      else [[s[0]] + rest[0]] + rest[1..]
  }

  /** Joining the pieces with the separator gives back the string. */
  lemma {:induction false} JoinSplit(s: string, c: char)
    ensures Join(Split(s, c), [c]) == s
    decreases |s|
  {
    if |s| > 0 {
      var rest := Split(s[1..], c);
      JoinSplit(s[1..], c);
      if s[0] == c {
        assert Split(s, c) == [""] + rest;
        assert ([""] + rest)[1..] == rest;
        assert s == [c] + s[1..];
      } else if |rest| == 1 {
        assert s == [s[0]] + s[1..];
      } else {
        var r := Split(s, c);
        assert r[1..] == rest[1..];
        assert s == [s[0]] + s[1..];
      }
    }
  }

  /** A piece without the separator splits as itself. */
  lemma {:induction false} SplitPiece(p: string, c: char)
    requires c !in p
    ensures Split(p, c) == [p]
    decreases |p|
  {
    if |p| > 0 {
      SplitPiece(p[1..], c);
      assert p == [p[0]] + p[1..];
    }
  }

  /** A piece followed by the separator splits off as the first piece. */
  lemma {:induction false} SplitFirst(p: string, c: char, t: string)
    requires c !in p
    ensures Split(p + [c] + t, c) == [p] + Split(t, c)
    decreases |p|
  {
    var s := p + [c] + t;
    if |p| == 0 {
      assert s[0] == c && s[1..] == t;
    } else {
      assert s[1..] == p[1..] + [c] + t;
      SplitFirst(p[1..], c, t);
      assert p == [p[0]] + p[1..];
    }
  }

  /** Splitting a join of separator-free pieces gives back the pieces. */
  lemma {:induction false} SplitJoin(xs: seq<string>, c: char)
    requires |xs| > 0
    requires forall k :: 0 <= k < |xs| ==> c !in xs[k]
    ensures Split(Join(xs, [c]), c) == xs
    decreases |xs|
  {
    if |xs| == 1 {
      SplitPiece(xs[0], c);
    } else {
      SplitJoin(xs[1..], c);
      SplitFirst(xs[0], c, Join(xs[1..], [c]));
      assert xs == [xs[0]] + xs[1..];
    }
  }

  /** A field without a newline cannot put one into a line. */
  lemma LineHasNoNewline(item: Item)
    requires '\n' !in item.name && '\n' !in item.quantity && '\n' !in item.unit
    ensures '\n' !in Line(item)
  {
    var l := item.quantity + " " + item.unit + " " + item.name;
    forall k | 0 <= k < |l| ensures l[k] != '\n' {
      if k < |item.quantity| {
        assert l[k] == item.quantity[k];
      } else if k == |item.quantity| {
      } else if k < |item.quantity| + 1 + |item.unit| {
        assert l[k] == item.unit[k - |item.quantity| - 1];
      } else if k == |item.quantity| + 1 + |item.unit| {
      } else {
        assert l[k] == item.name[k - |item.quantity| - |item.unit| - 2];
      }
    }
  }

  /** The exported file reads back line by line: when no field holds a
      newline, splitting it on newlines gives one line per row, in row
      order. An empty list exports the empty file. */
  lemma ExportReadsBack(items: seq<Item>)
    requires forall i :: 0 <= i < |items| ==>
               '\n' !in items[i].name && '\n' !in items[i].quantity && '\n' !in items[i].unit
    ensures |items| > 0 ==> Split(Export(items), '\n') == Lines(items)
    ensures |items| == 0 ==> Export(items) == ""
  {
    if |items| > 0 {
      forall k | 0 <= k < |items| ensures '\n' !in Lines(items)[k] {
        LineHasNoNewline(items[k]);
      }
      SplitJoin(Lines(items), '\n');
    }
  }

  /** The retailer links of a row, built from its name alone: both search
      URLs carry the encoded search form of the name. */
  function RowLinks(item: Item): (r: Links)
    ensures StartsWith(r.migros, MigrosSearch) && StartsWith(r.coop, CoopSearch)
    ensures var term := FormatForSearch(item.name);
            && PercentDecode(r.migros[|MigrosSearch|..]) == Some(Utf8Bytes(term))
            && r.migros[|MigrosSearch|..] == r.coop[|CoopSearch|..]
  {
    RetailerLinks(FormatForSearch(item.name))
  }

  /** Two rows with the same name link to the same searches, whatever their
      quantities and units. */
  lemma SameNameSameLinks(a: Item, b: Item)
    requires a.name == b.name
    ensures RowLinks(a) == RowLinks(b)
  {
  }
}

=== FILE: text.dfy ===
/** String helpers shared by the model: the JavaScript notions of white space,
    ASCII lower-casing, `trim`, `Array.prototype.join`, `String.prototype.includes`
    and the decimal rendering of integers. */
module Text {

  // ---------------------------------------------------------------------------
  // Characters
  // ---------------------------------------------------------------------------

  predicate IsUpper(c: char) {
    'A' <= c <= 'Z'
  }

  predicate IsDigit(c: char) {
    '0' <= c <= '9'
  }

  /** The characters matched by `\s` in a JavaScript regular expression and
      removed by `String.prototype.trim`: WhiteSpace and LineTerminator of
      ECMA-262 (TAB, LF, VT, FF, CR, SPACE, NBSP, the Zs category, LS, PS, BOM). */
  predicate IsSpace(c: char) {
    var n := c as int;
    || n == 0x09 || n == 0x0A || n == 0x0B || n == 0x0C || n == 0x0D
    || n == 0x20 || n == 0xA0 || n == 0x1680
    || (0x2000 <= n <= 0x200A)
    || n == 0x2028 || n == 0x2029 || n == 0x202F || n == 0x205F
    || n == 0x3000 || n == 0xFEFF
  }

  /** `toLowerCase` on one character, restricted to the ASCII letters. */
  function LowerChar(c: char): (d: char)
    ensures !IsUpper(d)
    ensures IsUpper(c) ==> d as int == c as int + 32
    ensures !IsUpper(c) ==> d == c
  {
    if IsUpper(c) then (c as int + 32) as char else c
  }

  /** `String.prototype.toLowerCase` restricted to ASCII: every other character
      is kept as it is, so the length never changes. */
  function Lower(s: string): (r: string)
    ensures |r| == |s|
    ensures forall i :: 0 <= i < |s| ==> r[i] == LowerChar(s[i])
    ensures forall i :: 0 <= i < |r| ==> !IsUpper(r[i])
  {
    seq(|s|, i requires 0 <= i < |s| => LowerChar(s[i]))
  }

  // ---------------------------------------------------------------------------
  // trim
  // ---------------------------------------------------------------------------

  /** Number of white-space characters at the start of `s`. */
  function LeadingSpaces(s: string): (n: nat)
    ensures n <= |s|
    ensures forall k :: 0 <= k < n ==> IsSpace(s[k])
    ensures n < |s| ==> !IsSpace(s[n])
    decreases |s|
  {
    if |s| > 0 && IsSpace(s[0]) then 1 + LeadingSpaces(s[1..]) else 0
  }

  /** Number of white-space characters at the end of `s`. */
  function TrailingSpaces(s: string): (n: nat)
    ensures n <= |s|
    ensures forall k :: |s| - n <= k < |s| ==> IsSpace(s[k])
    ensures n < |s| ==> !IsSpace(s[|s| - 1 - n])
    decreases |s|
  {
    if |s| > 0 && IsSpace(s[|s| - 1]) then 1 + TrailingSpaces(s[..|s| - 1]) else 0
  }

  /** `String.prototype.trim`. The result is the slice of `s` that starts at
      the first non-space character and ends after the last one: everything
      cut away is white space, and what is left neither starts nor ends with it. */
  function Trim(s: string): (r: string)
    ensures LeadingSpaces(s) + |r| <= |s|
    ensures forall k :: 0 <= k < |r| ==> r[k] == s[LeadingSpaces(s) + k]
    ensures forall k :: 0 <= k < LeadingSpaces(s) ==> IsSpace(s[k])
    ensures forall k :: LeadingSpaces(s) + |r| <= k < |s| ==> IsSpace(s[k])
    ensures |r| > 0 ==> !IsSpace(r[0]) && !IsSpace(r[|r| - 1])
  {
    var t := s[LeadingSpaces(s)..];
    t[..|t| - TrailingSpaces(t)]
  }

  /** A text that neither starts nor ends with white space is its own trim. */
  lemma TrimKeeps(s: string)
    requires |s| > 0 ==> !IsSpace(s[0]) && !IsSpace(s[|s| - 1])
    ensures Trim(s) == s
  {
    assert LeadingSpaces(s) == 0;
    assert s[0..] == s;
    assert TrailingSpaces(s) == 0;
  }

  // ---------------------------------------------------------------------------
  // join, includes, concatenation of pieces
  // ---------------------------------------------------------------------------

  /** `Array.prototype.join(sep)` on an array of strings. */
  function Join(xs: seq<string>, sep: string): string
    decreases |xs|
  {
    if |xs| == 0 then ""
    else if |xs| == 1 then xs[0]
    else xs[0] + sep + Join(xs[1..], sep)
  }

  /** Joining one more element adds exactly one separator and that element. */
  lemma {:induction false} JoinSnoc(xs: seq<string>, x: string, sep: string)
    requires |xs| > 0
    ensures Join(xs + [x], sep) == Join(xs, sep) + sep + x
    decreases |xs|
  {
    if |xs| == 1 {
      assert xs + [x] == [xs[0], x];
    } else {
      assert (xs + [x])[1..] == xs[1..] + [x];
      JoinSnoc(xs[1..], x, sep);
    }
  }

  predicate StartsWith(s: string, p: string) {
    |p| <= |s| && s[..|p|] == p
  }

  predicate EndsWith(s: string, p: string) {
    |p| <= |s| && s[|s| - |p|..] == p
  }

  /** `sub` occurs in `s` starting at position `i`. */
  predicate OccursAt(s: string, sub: string, i: nat)
  {
    i + |sub| <= |s| && s[i..i + |sub|] == sub
  }

  /** `String.prototype.includes`. */
  predicate Contains(s: string, sub: string)
  {
    exists i :: 0 <= i <= |s| - |sub| && OccursAt(s, sub, i)
  }

  /** A string cannot contain `sub` when the k-th character of `sub` is missing
      from every place of `s` where an occurrence would put it. */
  lemma {:induction false} NotContainsByWindow(s: string, sub: string, k: nat)
    requires k < |sub|
    requires forall j :: k <= j < |s| ==> s[j] != sub[k]
    ensures !Contains(s, sub)
  {
    forall i | 0 <= i <= |s| - |sub|
      ensures !OccursAt(s, sub, i)
    {
      assert s[i..i + |sub|][k] == s[i + k];
    }
  }

  /** The concatenation of a list of pieces, in order. */
  function Concat(pieces: seq<string>): string
    decreases |pieces|
  {
    if |pieces| == 0 then "" else pieces[0] + Concat(pieces[1..])
  }

  /** Piece `k` sits in the concatenation right after the pieces before it. */
  lemma {:induction false} ConcatSplit(pieces: seq<string>, k: nat)
    requires k < |pieces|
    ensures Concat(pieces) == Concat(pieces[..k]) + pieces[k] + Concat(pieces[k + 1..])
    decreases k
  {
    if k == 0 {
      assert pieces[..0] == [];
    } else {
      ConcatSplit(pieces[1..], k - 1);
      assert pieces[1..][..k - 1] == pieces[1..k];
      assert pieces[1..][k - 1] == pieces[k];
      assert pieces[1..][k..] == pieces[k + 1..];
      assert pieces[..k][1..] == pieces[1..k];
    }
  }

  /** Every piece occurs in the concatenation, at the combined length of the
      pieces before it. */
  lemma ContainsPiece(pieces: seq<string>, k: nat)
    requires k < |pieces|
    ensures OccursAt(Concat(pieces), pieces[k], |Concat(pieces[..k])|)
    ensures Contains(Concat(pieces), pieces[k])
  {
    ConcatSplit(pieces, k);
    var a := Concat(pieces[..k]);
    var s := Concat(pieces);
    assert s[|a|..|a| + |pieces[k]|] == pieces[k];
    assert 0 <= |a| <= |s| - |pieces[k]| && OccursAt(s, pieces[k], |a|);
  }

  // ---------------------------------------------------------------------------
  // Decimal rendering of integers
  // ---------------------------------------------------------------------------

  function DigitChar(d: nat): (c: char)
    requires d < 10
    ensures IsDigit(c) && c as int - '0' as int == d
  {
    ('0' as int + d) as char
  }

  /** The decimal rendering `String(n)` of a non-negative integer. */
  function NatToString(n: nat): (r: string)
    ensures |r| > 0
    ensures forall i :: 0 <= i < |r| ==> IsDigit(r[i])
    decreases n
  {
    if n < 10 then [DigitChar(n)] else NatToString(n / 10) + [DigitChar(n % 10)]
  }

  /** Reads a string of decimal digits back as a number. */
  function DigitsValue(s: string): nat
    requires forall i :: 0 <= i < |s| ==> IsDigit(s[i])
    decreases |s|
  {
    if |s| == 0 then 0
    else
      assert IsDigit(s[|s| - 1]);
      10 * DigitsValue(s[..|s| - 1]) + (s[|s| - 1] as int - '0' as int)
  }

  /** The rendering of a number reads back as that number. */
  lemma {:induction false} NatToStringRoundTrip(n: nat)
    ensures DigitsValue(NatToString(n)) == n
    decreases n
  {
    if n >= 10 {
      var r := NatToString(n);
      assert r[..|r| - 1] == NatToString(n / 10);
      NatToStringRoundTrip(n / 10);
    }
  }

  /** The decimal rendering `String(i)` of an integer. */
  function IntToString(i: int): string
  {
    if i < 0 then "-" + NatToString(-i) else NatToString(i)
  }
}

=== FILE: upstream.dfy ===
/** The boundary to the language-model service. Only the outcome of a call is
    modelled: the first content block of the reply is text, or it is some
    other kind of block, or the call itself throws. */
module Upstream {
  import opened Wrappers
  import opened Js

  /** A reply with an empty `content` array makes `content[0].type` throw a
      `TypeError` inside the route's `try`; that is a `CallFailed` here. */
  datatype Reply =
    | TextBlock(text: string)
    | OtherBlock
    | CallFailed(thrown: Thrown)

  const UnexpectedResponse := "Unexpected response type"

  /** `response.content[0]`, which must be a text block. */
  function ReplyText(reply: Reply): (r: Result<string, Thrown>)
    ensures reply.TextBlock? <==> r.Success?
    ensures reply.TextBlock? ==> r.value == reply.text
    ensures reply.OtherBlock? ==> r.error == Error(UnexpectedResponse)
    ensures reply.CallFailed? ==> r.error == reply.thrown
  {
    match reply
    case TextBlock(text) => Success(text)
    case OtherBlock => Failure(Error(UnexpectedResponse))
    case CallFailed(thrown) => Failure(thrown)
  }
}

=== FILE: wrappers.dfy ===
/** Failure-compatible Option and Result datatypes used throughout the model.
    `Result` stands for a computation that either yields a value or throws. */
module Wrappers {

  datatype Option<+T> = None | Some(value: T) {

    predicate IsFailure() {
      None?
    }

    function PropagateFailure<U>(): Option<U>
      requires None?
    {
      None
    }

    function Extract(): T
      requires Some?
    {
      value
    }
  }

  datatype Result<+R, +E> = Success(value: R) | Failure(error: E) {

    predicate IsFailure() {
      Failure?
    }

    function PropagateFailure<U>(): Result<U, E>
      requires Failure?
    {
      Failure(error)
    }

    function Extract(): R
      requires Success?
    {
      value
    }
  }
}
